=== FILE: README.md ===
# enex2markdown core, modelled in Dafny

enex2markdown converts an Evernote export (an ENEX file) into Markdown files.
This project models its pure core and proves properties of that model:

- **The ENEX reader** (`EnexParser`). It is a fold of a note store over
  `(action, element)` events. A fixed table sends the events of the tags
  `note`, `created`, `updated`, `title` and `tag` to their handlers; every
  other tag is ignored. Only the first 100 events are looked at.
- **`parseDateTime`** (`DateTimes`). It reads `YYYYMMDDThhmmssZ` by slicing
  fixed positions and calling Python's `int` on each slice. The result is a
  calendar-valid UTC date-time.
- **The note** (`Notes`). This covers its initial state and the header that
  `NoteWriter.add_note` writes: `# title`, `Created:`, `Updated:` and
  `Tags:`. It also covers the output path
  `<dir>/<year>/<YYYYMMDDThhmmssZ>.md`.
- **`NoteListener`** (`NoteListeners`). It is an append-only sequence of
  received notes.
- **The ENML to Markdown converter** (`EnmlConverter`). It walks the element
  tree with a before and an after hook per element: `a`, `div` and `br` are
  special, and text and tails are stripped. The resulting lines then pass
  through the blank-line collapser and are joined with line feeds. The
  `<?xml ` filter runs on the content before parsing.

Supporting modules:

- `Wrappers` holds `Option` and `Result`.
- `Text` models the parts of Python's string behaviour that the core uses:
  - `strip` over six of Python's ASCII whitespace characters (space, tab,
    `\n`, `\v`, `\f`, `\r`); Python also strips `\x1c`–`\x1f` and Unicode spaces;
  - "blank" meaning `len(s.strip()) == 0`;
  - substring search;
  - `sep.join`;
  - `splitlines` on line feeds.

Python objects are shared by reference. The parser's `NoteStore` and the
listener hold the same `Note` object, and a handler mutates it in place. The
model therefore keeps every note created so far in a heap, and the store and
the listener hold indices into it. A listener that received a note sees the
changes that later events make to it, exactly as in Python.

A handler that raises ends `parseNoteXML` with that exception. `Run`
stops at that event and returns the store as the earlier events left it,
together with the error.

In an assignment, Python evaluates the right-hand side before the target. So
for a `created` element with no current note, a bad timestamp is reported
before the missing note.

## Model

| member | source | states |
|---|---|---|
| NoteListeners.NewListener | src/note_listener.py:6-7 | A new listener holds no notes. |
| NoteListeners.AddNote | src/note_listener.py:9-10 | `add_note` appends: one more note, the earlier notes unchanged and in place, the new note last. |
| NoteListeners.AddAllAppends | src/note_listener.py:9-10 | Handing notes over one at a time leaves the listener holding its old notes followed by the new ones, in order. |
| NoteListeners.AddAllConcat | src/note_listener.py:9-10 | Handing over two batches in turn is the same as handing over their concatenation. |
| Notes.NewNote | src/note.py:11-16 | A fresh note has no created, updated or title value and no tags. |
| Notes.Render | src/note.py:27-37 | The written text always starts with the title, created and updated sections. It is exactly those sections when there are no tags. The join raises (TagWithoutText) if and only if some tag has no text, and then only those three sections were written. |
| Notes.TagLine | src/note.py:35-37 | The tag line is empty exactly when there are no tags. |
| Notes.AddNote | src/note.py:27-56 | To a path, a note without a created date fails before anything is written. Otherwise the text is the rendered header. |
| Notes.OutputFilename | src/note.py:55-56 | The path is exactly the directory, `str(year)` of the created date (its decimal digits with no leading zero), and the `%Y%m%dT%H%M%SZ` stamp followed by `.md`. That 16-character stem parses back, via `parseDateTime`, to the created date. It fails exactly when created is unset. |
| Notes.YearDirectoryMatchesStem | src/note.py:56 | For a four-digit year, the year directory equals the first four characters of the file name. |
| Notes.EmptyNoteWritesNothing | src/note.py:28-37 | A fresh note writes the empty text without error. |
| Notes.ReadRenderedHeader | src/note.py:28-37 | Reading the written header back line by line recovers the title, both timestamps in the `%Y-%m-%d %H:%M:%S` layout, and the tags joined by `, `. Each section is present exactly when its field is set, in the order title, created, updated, tags. This holds for any note whose title and tags have no line feed. |
| Notes.ReadSections | src/note.py:29-37 | The line reader inverts the header layout for any four optional values without line feeds. |
| Notes.TitleExample | src/note.py:29-30 | A note with only the title "Test title" writes `# Test title` and a line feed. |
| Notes.CreatedOnly | src/note.py:31-32 | A note with only a created date writes `Created: `, the readable stamp and a line feed. |
| Notes.ReadableExample | src/note.py:32 | 2010-01-01 00:00:00 is written as `2010-01-01 00:00:00`. |
| Notes.TagsExample | src/note.py:35-37 | The tags hello and world are written as `Tags: hello, world` with no final line feed. |
| DateTimes.ParseDateTime | src/enex_parser.py:92-101 | A string of 13 characters or fewer never parses, because the seconds slice is then empty. |
| DateTimes.ParseDigitStamp | src/enex_parser.py:92-101 | If positions 0-7 and 9-14 are digits, the parse succeeds exactly when those six fields form a valid calendar date-time, and the result has exactly those components. Re-formatting the result reproduces the digits at those positions. |
| DateTimes.ParseReadsOnlyFieldPositions | src/enex_parser.py:95-100 | Two strings that agree on the slices `[0:8]` and `[9:15]` parse identically. The character at position 8 and everything from position 15 on are never inspected. |
| DateTimes.ParseCompactStamp | src/note.py:56 | Parsing the `%Y%m%dT%H%M%SZ` rendering of any date-time gives back that date-time. |
| DateTimes.ParseReadableStamp | src/note.py:32 | The readable `%Y-%m-%d %H:%M:%S` stamp carries the same six fields: rearranged into the compact layout, it is the compact stamp and parses back to the date-time. |
| DateTimes.CompactStamp | src/note.py:56 | The compact stamp has 16 characters, with `T` at position 8 and `Z` at position 15. The date digits and the time digits are the zero-filled fields. |
| DateTimes.ReadableStamp | src/note.py:32 | The readable stamp has 19 characters with a space at position 10: the `-`-separated date, then the `:`-separated time, all zero-filled. |
| DateTimes.ReadableFieldSlices | src/note.py:32 | Each zero-filled field of the readable stamp sits at its fixed position, with `-` and `:` in between. |
| DateTimes.PyInt | src/enex_parser.py:95-100 | Python's `int` on a slice: a non-empty digit string gives its decimal value; an empty or all-whitespace string raises. |
| DateTimes.FieldValue | src/enex_parser.py:95-100 | A digit slice gives its value. An empty slice raises `NotAnInteger` at the slice's start position. |
| DateTimes.PySlice | src/enex_parser.py:95-100 | Python slicing clamps to the string: within bounds it is the ordinary slice; a slice that starts inside the string and ends past it runs to the end; one that starts at or past the end is empty. |
| DateTimes.DaysInMonth | src/enex_parser.py:101 | April, June, September and November have 30 days; February has 29 in a leap year and 28 otherwise; every other month has 31. |
| DateTimes.CalendarExamples | src/enex_parser.py:101 | The `datetime` constructor accepts 2024-02-29, 2000-02-29, 2024-04-30 and 9999-12-31 23:59:59, and refuses 2023-02-29, 1900-02-29, 2024-04-31, month 13, year 0 and hour 24. |
| DateTimes.ZeroPad | src/note.py:32 | A zero-filled field has exactly the requested width, only digits, and the number as its decimal value. |
| DateTimes.ZeroPadOfDecimal | src/note.py:32 | Every digit string is the zero-filled rendering of its own value. |
| DateTimes.DecimalString | src/note.py:56 | `str(year)` is a digit string whose value is the year, with no leading zero unless the year is 0. |
| DateTimes.FourDigitDecimalString | src/note.py:56 | For a four-digit year, `str(year)` equals its zero-filled `%Y` rendering. |
| DateTimes.ParseDateTimeExample1 | src/enex_parser.py:92-101 | `20100203T040506Z` parses to 2010-02-03 04:05:06. |
| DateTimes.ParseDateTimeExample2 | src/enex_parser.py:92-101 | `20240628T171400Z` parses to 2024-06-28 17:14:00. |
| EnexParser.HandlerFor | src/enex_parser.py:16-22 | The table gives a handler only for that handler's own tag. A tag with no handler matches none of the five. |
| EnexParser.HandlerTableRoundTrip | src/enex_parser.py:16-22 | Every handler is found under its own tag. |
| EnexParser.NewStore | src/enex_parser.py:41-44 | A new store has no current note and no listener. |
| EnexParser.RegisterNoteListener | src/enex_parser.py:38-39 | Registering sets the listener and changes nothing else. |
| EnexParser.NewNoteIn | src/enex_parser.py:46-47 | A `note` start creates one new, empty note and makes it current. Every earlier note object is kept unchanged, and the listener is untouched. |
| EnexParser.EndNote | src/enex_parser.py:49-51 | A `note` end hands the current note to the listener once; `None` is handed over when there is no current note. Without a listener it is a no-op. The current note is never cleared and no note changes. |
| EnexParser.CurrentNote | src/enex_parser.py:68-90 | The handlers' access to the current note succeeds exactly when there is one. |
| EnexParser.ParseStamp | src/enex_parser.py:68-79 | A timestamp element without text raises. Otherwise the result is `parseDateTime` of the text or its error. |
| EnexParser.HandleFieldEnd | src/enex_parser.py:68-90 | An end event of `created`, `updated`, `title` or `tag` succeeds exactly when there is a current note and, for the timestamps, the text parses. The timestamp error takes precedence over the missing note. The handler sets only its own field, or appends the text to the tags, of the current note, and leaves every other note as it was. |
| EnexParser.HandleEvent | src/enex_parser.py:33-90 | An unhandled tag changes nothing. A `note` start is `NewNoteIn` and a `note` end is `EndNote`. The start event of any other tag changes nothing, and its end event runs that tag's field handler on the element text. |
| EnexParser.Run | src/enex_parser.py:27-28 | The loop succeeds exactly when every event was handled; a run that raised consumed fewer events than it was given. |
| EnexParser.RunStopsAtFirstFailure | src/enex_parser.py:27-28 | A run that raised stopped at the first event that raises: the events before it all succeed and leave the store the outcome holds, and that event raises the outcome's error. |
| EnexParser.RunConcat | src/enex_parser.py:27-28 | Running `a + b` runs `a` and then, unless an event of `a` raised, runs `b` from where `a` left the store. |
| EnexParser.ParseNoteXml | src/enex_parser.py:24-31 | At most 100 events are handled. A stream of at most 100 events is handled exactly as the plain loop would handle it. |
| EnexParser.ParseIgnoresEventsPastLimit | src/enex_parser.py:24-31 | Events after the first 100 cannot change the outcome. |
| EnexParser.UnhandledTagsAreInvisible | src/enex_parser.py:33-36 | Deleting every event with an unhandled tag leaves the final store and the error unchanged. |
| EnexParser.ListenerReceivesNoteEnds | src/enex_parser.py:49-51 | The listener ends up holding what it held before, followed by the current note at each `note` end event, in stream order. The reference definition of that sequence reads only the events. |
| EnexParser.ListenerIsPassive | src/enex_parser.py:38-51 | Which listener is registered, or whether one is registered at all, does not affect the notes, the current note, how far the run gets, or its error. |
| EnexParser.TagsKeepDocumentOrder | src/enex_parser.py:87-90 | A run of `tag` end events appends the texts to the current note's tags, in document order and with duplicates. Nothing else changes. |
| EnexParser.TitleElement | src/enex_parser.py:81-85 | A `title` element sets the current note's title and changes nothing else. |
| EnexParser.CreatedElement | src/enex_parser.py:68-73 | A `created` element whose text parses sets the creation time. |
| EnexParser.UpdatedElement | src/enex_parser.py:75-79 | An `updated` element whose text parses sets the update time. |
| EnexParser.TagElement | src/enex_parser.py:87-90 | A `tag` element appends its text to the tags. |
| EnexParser.OneNoteIsDelivered | src/enex_parser.py:24-90 | For an export holding one note with a title, two parseable timestamps and one tag, a freshly registered listener receives exactly one note carrying all four values. |
| EnmlConverter.TextLine | src/enml_converter.py:28-34 | Text or a tail gives at most one line, and none exactly when it is missing or blank. The line is the stripped text: not blank, with no surrounding whitespace. |
| EnmlConverter.AnchorText | src/enml_converter.py:49-55 | The anchor text is the stripped text. When the text is missing or blank and the `href` is not blank, it is the stripped `href`. When both are missing or blank it is empty, or, with no text at all, the `strip` of `None` raises (`None` here). |
| EnmlConverter.AnchorLine | src/enml_converter.py:42 | The synthesized line is `[`, the text, `](`, the URL, `)`: every position of it is fixed by the text and the URL. |
| EnmlConverter.BeforeElem | src/enml_converter.py:37-47 | The walk descends exactly when the tag is not `a`. An `a` emits one `[text](url)` line when its `href` is present and not blank, and nothing otherwise. A `div` emits two empty lines first. |
| EnmlConverter.AfterElem | src/enml_converter.py:57-63 | A `div` or a `br` emits two empty lines after the element; other tags emit nothing. |
| EnmlConverter.RenderingIsWellShaped | src/enml_converter.py:25-35 | Every line the walk emits is either empty or a non-blank line with no surrounding whitespace. |
| EnmlConverter.AnchorIgnoresChildren | src/enml_converter.py:38-43 | An `a` element renders the same whatever its children. |
| EnmlConverter.AnchorLines | src/enml_converter.py:25-43 | An `a` element renders as its one link line, or nothing, followed by its tail. |
| EnmlConverter.ElementLines | src/enml_converter.py:25-35 | Any element other than an anchor renders, in order: two empty lines if it is a `div`, its text line, its children's lines, two empty lines if it is a `div` or `br`, then its tail line. |
| EnmlConverter.ChildrenConcat | src/enml_converter.py:30-31 | The children are rendered one after the other: the lines of two runs of siblings are the lines of the first run followed by those of the second. |
| EnmlConverter.DivAndBreakLines | src/enml_converter.py:25-63 | A `div` or `br` renders, in order: its before lines (two empty lines for a `div` only), its text, its children's lines in document order, two empty lines, then its tail. |
| EnmlConverter.BlankLinesComeFromBreaks | src/enml_converter.py:25-63 | The number of blank lines the walk emits is exactly two per `div` start, per `div` end and per `br` visited. |
| EnmlConverter.RemoveMultipleBlankLines | src/enml_converter.py:65-76 | The result never has three consecutive blank lines, starts with at most two, and is no longer than the input. |
| EnmlConverter.CollapseIsSubsequence | src/enml_converter.py:65-76 | The collapsed lines are a subsequence of the input. |
| EnmlConverter.CollapseKeepsText | src/enml_converter.py:65-76 | Every non-blank line is kept, in the original order. |
| EnmlConverter.CollapseFixedPoint | src/enml_converter.py:65-76 | The collapser leaves its input unchanged if and only if the input has no three consecutive blank lines. |
| EnmlConverter.CollapseIdempotent | src/enml_converter.py:65-76 | Collapsing twice equals collapsing once. |
| EnmlConverter.CollapseRun | src/enml_converter.py:68-75 | A run of blank lines keeps only as many of its first lines as bring the current run of blanks to two. |
| EnmlConverter.CollapseAtText | src/enml_converter.py:69-71 | A non-blank line is kept and resets the blank count. |
| EnmlConverter.KeptLines | src/enml_converter.py:22 | The filter never adds lines, and every kept line is stripped and has no `<?xml `. Which lines are kept, and in what order, is stated by `KeptLinesOne` and `KeptLinesConcat`. |
| EnmlConverter.KeptLinesOne | src/enml_converter.py:22 | A single line holding `<?xml ` is dropped; any other single line is kept, stripped. |
| EnmlConverter.KeptLinesConcat | src/enml_converter.py:22 | The filter works line by line: filtering two runs of lines gives the filtered first run followed by the filtered second. With the one-line case this makes the kept lines exactly the stripped lines without `<?xml `, in input order. |
| EnmlConverter.KeptLinesCount | src/enml_converter.py:22 | The number of kept lines plus the number of lines containing `<?xml ` is the number of input lines. |
| EnmlConverter.KeptLinesFixedPoint | src/enml_converter.py:22 | The filter changes nothing if and only if every line is already stripped and free of `<?xml `. |
| EnmlConverter.RemoveXmlPi | src/enml_converter.py:20-23 | The filtered content contains no `<?xml `. Split at its line feeds, it gives back exactly the kept lines of the content's `splitlines`; it is empty when no line is kept. |
| EnmlConverter.MarkdownLines | src/enml_converter.py:16-17 | The final line list has no three consecutive blank lines. It contains only empty and stripped non-blank lines, keeps every non-blank line of the walk in order, and is a subsequence of the walk. |
| EnmlConverter.ToMarkdown | src/enml_converter.py:11-18 | Content the XML parser refuses is an error, and so is a root whose tag is not exactly `en-note`. Otherwise the result is the collapsed lines of the walk joined by line feeds. |
| EnmlConverter.TextExample | src/enml_converter.py:11-18 | An `en-note` holding only non-blank text converts to the stripped text. |
| EnmlConverter.AnchorExample | src/enml_converter.py:37-55 | A lone anchor with a non-blank URL converts to `[text](url)`. The shown text is the stripped element text, or the stripped URL when the text is missing or blank. |
| EnmlConverter.AnchorWithoutUrlExample | src/enml_converter.py:38-43 | A lone anchor without `href` converts to nothing. |
| EnmlConverter.DivExample | src/enml_converter.py:44-60 | A lone `div` with text converts to two line feeds, the stripped text and two line feeds. |
| EnmlConverter.NestedDivExample | src/enml_converter.py:65-76 | Three nested `div`s around an inner text, whose other texts and tails are whitespace-only strings, each possibly different, convert to two line feeds, the text and two line feeds. The extra blank lines are collapsed. |
| EnmlConverter.CollapseSixTextSix | src/enml_converter.py:65-76 | Six blank lines, a text line and six blank lines collapse to two, the text and two. |
| Text.Strip | src/enml_converter.py:28-29 | The stripped string is no longer than the input, starts and ends with a non-space, and is empty exactly when the input is all whitespace. |
| Text.StripSlice | src/enml_converter.py:28-29 | `strip` removes exactly the leading and trailing whitespace: the result is the slice of the input after its leading whitespace, and every character outside that slice is whitespace. |
| Text.StripIdempotent | src/enml_converter.py:22 | Stripping twice is stripping once. |
| Text.BlankIsEmptyStrip | src/enml_converter.py:69 | A line counts as blank exactly when its strip is empty. |
| Text.SplitLines | src/enml_converter.py:21 | `splitlines` gives pieces without line feeds. It gives no pieces exactly for empty content. Joining the pieces with line feeds gives the content back, without its final line feed if it ends in one. |
| Text.JoinCons | src/enml_converter.py:23 | `sep.join` of a part followed by at least one more part is that part, the separator, and the join of the rest. |
| Text.JoinSnoc | src/enml_converter.py:18 | `sep.join` of parts followed by one more part is the join of the parts, the separator, and that part. |
| Text.InOperator | src/enml_converter.py:22 | `pat in s`: the empty pattern is in every string, a pattern found in `s` is no longer than `s`, and a pattern is in any string built around it. |
| Text.SplitJoin | src/enml_converter.py:21-23 | Splitting the line-feed join of lines that have no line feed gives the lines back. |

## Left out

- XML parsing itself (`etree.iterparse`, `etree.fromstring`) is not modelled.
  - The reader takes the event sequence as input.
  - The converter takes the parser as a function argument that returns the root element or a syntax error.
  - Entities, CDATA, comments, processing instructions as elements, and text encodings are outside the model.
- Files and streams are not modelled: opening, creating directories and closing. `add_note` returns the text it would write, and the output path is a sequence of components.
- Logging and the command-line entry point are not modelled: they have no effect on the results.
- `iter_notes` is an empty stub on the writer and does not exist on `NoteListener`. The model reads the listener's notes directly.
- Resources, attachments and note content are absent from the note class. `add_note` never writes them.
- `strip`, `int` and `splitlines` are modelled on ASCII only.
  - `strip` removes six of Python's ASCII whitespace characters: space, tab, `\n`, `\v`, `\f` and `\r`. Python also strips `\x1c`–`\x1f` and Unicode spaces, and `int` skips the same wider set around its digits.
  - `int` accepts ASCII digits with single underscores, surrounding whitespace and a sign. Python also accepts other Unicode decimal digits.
  - `splitlines` splits on line feeds only. Python also splits at `\r`, `\r\n` and other separators.
- `%Y` for a year below 1000 is platform-dependent. The model zero-fills to four digits. `Notes.YearDirectoryMatchesStem` and the path round trip through the year directory assume a four-digit year.
- Time zones are not modelled: every date-time is UTC, as `parseDateTime` makes it.
- EnmlConverter.MarkdownLines: the no-three-blank-lines guarantee holds for the line list. A text or tail with line feeds inside it can still add blank lines to the joined string.
- EnexParser.OneNoteIsDelivered: the concrete sample export read by the parser tests is not part of this model. The lemma covers every export of that shape, for any title, tag and parseable timestamps.
- EnmlConverter.ToMarkdown: the model always rejects a root whose tag is not `en-note`. The source checks this with a bare `assert`, which Python skips under `-O`; the converter then renders any root.
- The listener's truthiness test in `endNote` is not modelled: the listener classes define no length or truth value, so a registered listener always counts as present.

=== FILE: date_time.dfy ===
/** UTC timestamps of the ENEX format: the six-field record that stands in
    for a timezone-aware `datetime`, the fixed-position parser `parseDateTime`
    (src/enex_parser.py), and the two `strftime` layouts the note writer uses
    (src/note.py). */
module DateTimes {
  import opened Wrappers
  import opened Text

  /** A calendar date and a time of day, to the second, always in UTC. */
  datatype DateTime = DateTime(year: int, month: int, day: int, hour: int, minute: int, second: int)

  predicate IsLeapYear(year: int) {
    year % 4 == 0 && (year % 100 != 0 || year % 400 == 0)
  }

  /** The length of a month of the proleptic Gregorian calendar. */
  function DaysInMonth(year: int, month: int): (n: int)
    requires 1 <= month <= 12
    ensures 28 <= n <= 31
    ensures month == 2 ==> (n == 29 <==> IsLeapYear(year))
    ensures month == 4 || month == 6 || month == 9 || month == 11 ==> n == 30
    ensures month != 2 && month != 4 && month != 6 && month != 9 && month != 11 ==> n == 31
  {
    if month == 2 then (if IsLeapYear(year) then 29 else 28)
    else if month == 4 || month == 6 || month == 9 || month == 11 then 30
    else 31
  }

  /** The field ranges Python's `datetime` constructor enforces, with years
      from MINYEAR 1 to MAXYEAR 9999 of the proleptic Gregorian calendar. */
  predicate IsValid(d: DateTime) {
    && 1 <= d.year <= 9999
    && 1 <= d.month <= 12
    && 1 <= d.day <= DaysInMonth(d.year, d.month)
    && 0 <= d.hour < 24
    && 0 <= d.minute < 60
    && 0 <= d.second < 60
  }

  /** What the `datetime` constructor accepts and refuses: 29 February
      only in leap years, where a century year must be divisible by 400;
      30 days in April; no thirteenth month, no year 0, no hour 24. */
  lemma CalendarExamples()
    ensures IsValid(DateTime(2024, 2, 29, 0, 0, 0)) && !IsValid(DateTime(2023, 2, 29, 0, 0, 0))
    ensures IsValid(DateTime(2000, 2, 29, 0, 0, 0)) && !IsValid(DateTime(1900, 2, 29, 0, 0, 0))
    ensures IsValid(DateTime(2024, 4, 30, 0, 0, 0)) && !IsValid(DateTime(2024, 4, 31, 0, 0, 0))
    ensures IsValid(DateTime(9999, 12, 31, 23, 59, 59)) && !IsValid(DateTime(2024, 13, 1, 0, 0, 0))
    ensures !IsValid(DateTime(0, 1, 1, 0, 0, 0)) && !IsValid(DateTime(2024, 1, 1, 24, 0, 0))
  {
  }

  /** A `datetime` object: it cannot hold an invalid combination of fields. */
  type UtcDateTime = d: DateTime | IsValid(d) witness DateTime(1970, 1, 1, 0, 0, 0)

  // ---------------------------------------------------------------------
  // Decimal digits

  predicate IsDigit(c: char) {
    '0' <= c <= '9'
  }

  predicate AllDigits(s: string) {
    forall i :: 0 <= i < |s| ==> IsDigit(s[i])
  }

  function DigitValue(c: char): (d: nat)
    requires IsDigit(c)
    ensures d < 10
  {
    (c as int) - ('0' as int)
  }

  function DigitChar(d: nat): (c: char)
    requires d < 10
    ensures IsDigit(c) && DigitValue(c) == d
  {
    ((('0' as int) + d) as char)
  }

  function Pow10(n: nat): (p: nat)
    ensures p >= 1
  {
    if n == 0 then 1 else 10 * Pow10(n - 1)
  }

  lemma {:induction false} Pow10Monotone(m: nat, n: nat)
    requires m <= n
    ensures Pow10(m) <= Pow10(n)
    decreases n
  {
    if m < n {
      Pow10Monotone(m, n - 1);
    }
  }

  /** The number a string of decimal digits denotes, most significant digit
      first; it is always below 10 to the power of the digit count. */
  function DecimalValue(s: string): (v: nat)
    requires AllDigits(s)
    ensures v < Pow10(|s|)
    decreases |s|
  {
    if s == [] then 0
    else DecimalValue(s[..|s| - 1]) * 10 + DigitValue(s[|s| - 1])
  }

  /** `n` written with exactly `width` decimal digits, zero-filled on the
      left, as `strftime` writes `%m`, `%d`, `%H`, `%M`, `%S` and `%Y`. Reading
      the digits back gives `n`. */
  function ZeroPad(n: nat, width: nat): (r: string)
    requires n < Pow10(width)
    ensures |r| == width && AllDigits(r)
    ensures DecimalValue(r) == n
    decreases width
  {
    if width == 0 then []
    else
      var r := ZeroPad(n / 10, width - 1) + [DigitChar(n % 10)];
      assert r[..|r| - 1] == ZeroPad(n / 10, width - 1);
      r
  }

  /** The converse round trip: a digit string is the zero-filled rendering of
      its own value. */
  lemma {:induction false} ZeroPadOfDecimal(s: string)
    requires AllDigits(s)
    ensures ZeroPad(DecimalValue(s), |s|) == s
    decreases |s|
  {
    if s != [] {
      var init := s[..|s| - 1];
      var v := DecimalValue(s);
      ZeroPadOfDecimal(init);
      LastDigit(DecimalValue(init), DigitValue(s[|s| - 1]));
      assert DigitChar(v % 10) == s[|s| - 1];
      assert s == init + [s[|s| - 1]];
    }
  }

  /** Appending digit `d` to the digits of `q` and dividing by ten undoes it. */
  lemma LastDigit(q: nat, d: nat)
    requires d < 10
    ensures (q * 10 + d) / 10 == q && (q * 10 + d) % 10 == d
  {
  }

  /** Python's `str(n)` for a natural number: decimal digits without leading
      zeros. */
  function DecimalString(n: nat): (r: string)
    ensures |r| >= 1 && AllDigits(r)
    ensures DecimalValue(r) == n
    ensures r[0] == '0' ==> n == 0
    decreases n
  {
    if n < 10 then [DigitChar(n)]
    else
      var r := DecimalString(n / 10) + [DigitChar(n % 10)];
      assert r[..|r| - 1] == DecimalString(n / 10);
      r
  }

  /** For a four-digit number, `str(n)` and `%Y` agree. */
  lemma FourDigitDecimalString(n: nat)
    requires 1000 <= n < 10000
    ensures DecimalString(n) == ZeroPad(n, 4)
  {
    var s := DecimalString(n);
    assert |s| == 4 by {
      if |s| < 4 {
        Pow10Monotone(|s|, 3);
      } else if |s| > 4 {
        assert DecimalValue(s) >= Pow10(|s| - 1) by {
          DecimalValueLowerBound(s);
        }
        Pow10Monotone(4, |s| - 1);
      }
    }
    ZeroPadOfDecimal(s);
  }

  /** A digit string that does not start with a zero denotes at least 10 to
      the power of one less than its length. */
  lemma {:induction false} DecimalValueLowerBound(s: string)
    requires |s| >= 1 && AllDigits(s) && s[0] != '0'
    ensures DecimalValue(s) >= Pow10(|s| - 1)
    decreases |s|
  {
    if |s| > 1 {
      var init := s[..|s| - 1];
      assert init[0] == s[0];
      DecimalValueLowerBound(init);
    } else {
      assert DecimalValue(s) == DigitValue(s[0]);
    }
  }

  // ---------------------------------------------------------------------
  // Python's int() on a string

  /** `s` without its underscores. */
  function RemoveUnderscores(s: string): (r: string)
    ensures |r| <= |s|
    ensures (forall i :: 0 <= i < |s| ==> IsDigit(s[i]) || s[i] == '_') ==> AllDigits(r)
    ensures AllDigits(s) ==> r == s
    decreases |s|
  {
    if s == [] then []
    else (if s[0] == '_' then [] else [s[0]]) + RemoveUnderscores(s[1..])
  }

  /** The digits of a decimal integer literal as `int()` accepts them: digits,
      with single underscores allowed between two digits. */
  predicate IsDigitGroup(s: string) {
    && |s| > 0
    && IsDigit(s[0])
    && forall i :: 0 <= i < |s| ==> GroupCharAt(s, i)
  }

  /** The character at `i` is a digit, or an underscore with a digit after it. */
  predicate GroupCharAt(s: string, i: nat)
    requires i < |s|
  {
    IsDigit(s[i]) || (s[i] == '_' && i + 1 < |s| && IsDigit(s[i + 1]))
  }

  /** Python's `int(s)` with base 10: surrounding whitespace is ignored, an
      optional sign may lead, and the rest must be a digit group; anything
      else is the `ValueError` case, `None` here. */
  function PyInt(s: string): (r: Option<int>)
    ensures AllDigits(s) ==> (r.Some? <==> |s| > 0)
    ensures AllDigits(s) && |s| > 0 ==> r == Some(DecimalValue(s))
    ensures AllSpace(s) ==> r.None?
    ensures r.Some? ==> -(Pow10(|s|) as int) < r.value < Pow10(|s|)
  {
    if AllDigits(s) && |s| > 0 then
      StrippedIsFixed(s);
      SignedLiteral(Strip(s))
    else
      var r := SignedLiteral(Strip(s));
      Pow10Monotone(|Strip(s)|, |s|);
      r
  }

  /** `int()` on an already stripped string: an optional sign, then a digit
      group. */
  function SignedLiteral(t: string): (r: Option<int>)
    ensures AllDigits(t) && |t| > 0 ==> r == Some(DecimalValue(t))
    ensures t == [] ==> r.None?
    ensures r.Some? ==> -(Pow10(|t|) as int) < r.value < Pow10(|t|)
  {
    var signed := |t| > 0 && (t[0] == '+' || t[0] == '-');
    var body := if signed then t[1..] else t;
    match GroupValue(body)
    case None => None
    case Some(v) =>
      Pow10Monotone(|body|, |t|);
      Some(if signed && t[0] == '-' then -(v as int) else v)
  }

  /** A digit group holds only digits and underscores. */
  lemma GroupChars(b: string)
    requires IsDigitGroup(b)
    ensures forall i :: 0 <= i < |b| ==> IsDigit(b[i]) || b[i] == '_'
  {
    forall i | 0 <= i < |b| ensures IsDigit(b[i]) || b[i] == '_' {
      assert GroupCharAt(b, i);
    }
  }

  /** The value of a digit group, or `None` when `b` is not one. */
  function GroupValue(b: string): (r: Option<nat>)
    ensures AllDigits(b) && |b| > 0 ==> r == Some(DecimalValue(b))
    ensures b == [] ==> r.None?
    ensures r.Some? ==> r.value < Pow10(|b|)
  {
    if IsDigitGroup(b) then
      GroupChars(b);
      var digits := RemoveUnderscores(b);
      Pow10Monotone(|digits|, |b|);
      Some(DecimalValue(digits))
    else
      None
  }

  /** Python's `s[lo:hi]` for `0 <= lo <= hi`: both bounds are clamped to the
      length, so a short string yields a short or empty slice, never an
      error. */
  function PySlice(s: string, lo: nat, hi: nat): (r: string)
    requires lo <= hi
    ensures |r| <= hi - lo
    ensures hi <= |s| ==> r == s[lo..hi]
    ensures lo < |s| < hi ==> r == s[lo..]
    ensures lo >= |s| ==> r == []
  {
    if lo >= |s| then [] else if hi <= |s| then s[lo..hi] else s[lo..]
  }

  function Clamp(i: nat, n: nat): nat {
    if i <= n then i else n
  }

  /** A slice of a slice is a slice of the original. */
  lemma PySliceOfSlice(s: string, lo: nat, hi: nat, a: nat, b: nat)
    requires lo <= hi && a <= b && lo + b <= hi
    ensures PySlice(PySlice(s, lo, hi), a, b) == PySlice(s, lo + a, lo + b)
  {
    var inner := PySlice(s, lo, hi);
    var l, h := Clamp(lo, |s|), Clamp(hi, |s|);
    assert inner == s[l..h];
    assert Clamp(lo + a, |s|) == l + Clamp(a, |inner|);
    assert Clamp(lo + b, |s|) == l + Clamp(b, |inner|);
    assert PySlice(inner, a, b) == inner[Clamp(a, |inner|)..Clamp(b, |inner|)];
    assert PySlice(s, lo + a, lo + b) == s[Clamp(lo + a, |s|)..Clamp(lo + b, |s|)];
  }

  // ---------------------------------------------------------------------
  // parseDateTime

  /** Why a timestamp string was refused: a field slice that `int()` rejects
      (identified by where the slice starts), or fields that `datetime`
      rejects. */
  datatype DateError = NotAnInteger(position: nat) | OutOfRange

  /** One `int()` conversion of a field slice; `pos` is where the slice
      starts, reported when the conversion fails. */
  function FieldValue(slice: string, pos: nat): (r: Result<int, DateError>)
    ensures AllDigits(slice) && |slice| > 0 ==> r == Success(DecimalValue(slice) as int)
    ensures |slice| == 0 ==> r == Failure(NotAnInteger(pos))
  {
    match PyInt(slice)
    case None => Failure(NotAnInteger(pos))
    case Some(v) => Success(v)
  }

  /** `parseDateTime`: reads year, month, day, hour, minute and second from
      the fixed slices [0:4], [4:6], [6:8], [9:11], [11:13] and [13:15] of a
      `YYYYMMDDThhmmssZ` string and builds a UTC `datetime` from them. A
      string of 13 characters or fewer has an empty seconds slice and is
      refused. */
  function ParseDateTime(s: string): (r: Result<UtcDateTime, DateError>)
    ensures |s| <= 13 ==> r.Failure?
  {
    match ReadFields(s)
    case Failure(e) => Failure(e)
    case Success(d) => if IsValid(d) then Success(d) else Failure(OutOfRange)
  }

  /** The six `int()` conversions of `parseDateTime`, in source order, on the
      slices [0:4], [4:6], [6:8], [9:11], [11:13] and [13:15]. */
  function ReadFields(s: string): (r: Result<DateTime, DateError>)
    ensures |s| <= 13 ==> r.Failure?
  {
    FieldsFromSlices(PySlice(s, 0, 4), PySlice(s, 4, 6), PySlice(s, 6, 8),
                     PySlice(s, 9, 11), PySlice(s, 11, 13), PySlice(s, 13, 15))
  }

  /** The conversions themselves: the first one that fails decides the
      error, and an empty seconds slice always fails. */
  function FieldsFromSlices(y: string, mo: string, d: string, h: string, mi: string, sec: string): (r: Result<DateTime, DateError>)
    ensures sec == [] ==> r.Failure?
  {
    var year :- FieldValue(y, 0);
    var month :- FieldValue(mo, 4);
    var day :- FieldValue(d, 6);
    var hour :- FieldValue(h, 9);
    var minute :- FieldValue(mi, 11);
    var second :- FieldValue(sec, 13);
    Success(DateTime(year, month, day, hour, minute, second))
  }

  /** `parseDateTime` looks only at characters 0 to 7 and 9 to 14: two strings
      that agree there (including in where they end) parse alike, whatever
      stands at position 8 and from position 15 on. */
  lemma ParseReadsOnlyFieldPositions(s: string, t: string)
    requires PySlice(s, 0, 8) == PySlice(t, 0, 8)
    requires PySlice(s, 9, 15) == PySlice(t, 9, 15)
    ensures ParseDateTime(s) == ParseDateTime(t)
  {
    SubSliceAgrees(s, t, 0, 8, 0, 4);
    SubSliceAgrees(s, t, 0, 8, 4, 6);
    SubSliceAgrees(s, t, 0, 8, 6, 8);
    SubSliceAgrees(s, t, 9, 15, 0, 2);
    SubSliceAgrees(s, t, 9, 15, 2, 4);
    SubSliceAgrees(s, t, 9, 15, 4, 6);
    ReadFieldsAgree(s, t);
  }

  lemma SubSliceAgrees(s: string, t: string, lo: nat, hi: nat, a: nat, b: nat)
    requires lo <= hi && a <= b && lo + b <= hi
    requires PySlice(s, lo, hi) == PySlice(t, lo, hi)
    ensures PySlice(s, lo + a, lo + b) == PySlice(t, lo + a, lo + b)
  {
    PySliceOfSlice(s, lo, hi, a, b);
    PySliceOfSlice(t, lo, hi, a, b);
  }

  lemma ReadFieldsAgree(s: string, t: string)
    requires PySlice(s, 0, 4) == PySlice(t, 0, 4)
    requires PySlice(s, 4, 6) == PySlice(t, 4, 6)
    requires PySlice(s, 6, 8) == PySlice(t, 6, 8)
    requires PySlice(s, 9, 11) == PySlice(t, 9, 11)
    requires PySlice(s, 11, 13) == PySlice(t, 11, 13)
    requires PySlice(s, 13, 15) == PySlice(t, 13, 15)
    ensures ReadFields(s) == ReadFields(t)
  {
  }

  // ---------------------------------------------------------------------
  // strftime layouts

  lemma Pow10Widths()
    ensures Pow10(2) == 100 && Pow10(4) == 10000
  {
    assert Pow10(1) == 10;
    assert Pow10(3) == 1000;
  }

  /** Three zero-filled fields, the first `wx` digits wide and the other two
      two digits wide, with `sep` between them: `%Y%m%d` and `%H%M%S` have no
      separator, `%Y-%m-%d` and `%H:%M:%S` have one character. */
  function Fields3(x: nat, wx: nat, y: nat, z: nat, sep: string): (r: string)
    requires x < Pow10(wx) && y < 100 && z < 100 && NoNewline(sep)
    ensures |r| == wx + 4 + 2 * |sep| && NoNewline(r)
    ensures r[..wx] == ZeroPad(x, wx)
    ensures r[wx..wx + |sep|] == sep
    ensures r[wx + |sep|..wx + |sep| + 2] == ZeroPad(y, 2)
    ensures r[wx + |sep| + 2..wx + 2 * |sep| + 2] == sep
    ensures r[wx + 2 * |sep| + 2..] == ZeroPad(z, 2)
  {
    Pow10Widths();
    var a, b, c := ZeroPad(x, wx), ZeroPad(y, 2), ZeroPad(z, 2);
    var r := a + sep + b + sep + c;
    assert r[..wx] == a;
    assert r[wx..wx + |sep|] == sep;
    assert r[wx + |sep|..wx + |sep| + 2] == b;
    assert r[wx + |sep| + 2..wx + 2 * |sep| + 2] == sep;
    assert r[wx + 2 * |sep| + 2..] == c;
    assert NoNewline(a) && NoNewline(b) && NoNewline(c);
    ConcatNoNewline(a, sep);
    ConcatNoNewline(a + sep, b);
    ConcatNoNewline(a + sep + b, sep);
    ConcatNoNewline(a + sep + b + sep, c);
    r
  }

  /** `strftime('%Y%m%dT%H%M%SZ')`: sixteen characters, the date digits, a
      `T` at position 8, the time digits and a `Z` at position 15. */
  function CompactStamp(d: UtcDateTime): (r: string)
    ensures |r| == 16 && r[8] == 'T' && r[15] == 'Z'
    ensures r[..8] == Fields3(d.year, 4, d.month, d.day, "")
    ensures r[9..15] == Fields3(d.hour, 2, d.minute, d.second, "")
  {
    Pow10Widths();
    var date := Fields3(d.year, 4, d.month, d.day, "");
    var time := Fields3(d.hour, 2, d.minute, d.second, "");
    var r := date + "T" + time + "Z";
    assert r[..8] == date;
    assert r[9..15] == time;
    r
  }

  /** `strftime('%Y-%m-%d %H:%M:%S')`: nineteen characters, the date with
      dashes, a space at position 10, and the time with colons. */
  function ReadableStamp(d: UtcDateTime): (r: string)
    ensures |r| == 19 && r[10] == ' ' && NoNewline(r)
    ensures r[..10] == Fields3(d.year, 4, d.month, d.day, "-")
    ensures r[11..] == Fields3(d.hour, 2, d.minute, d.second, ":")
  {
    Pow10Widths();
    var date := Fields3(d.year, 4, d.month, d.day, "-");
    var time := Fields3(d.hour, 2, d.minute, d.second, ":");
    ReadableParts(date, time);
    date + [' '] + time
  }

  /** A ten-character date and an eight-character time around a space make
      the nineteen readable characters. */
  lemma ReadableParts(date: string, time: string)
    requires |date| == 10 && |time| == 8 && NoNewline(date) && NoNewline(time)
    ensures var r := date + [' '] + time;
      && |r| == 19 && r[10] == ' ' && NoNewline(r) && r[..10] == date && r[11..] == time
  {
    AroundChar(date, ' ', time);
  }

  /** Where the parts of `a + [c] + b` sit in it. */
  lemma AroundChar(a: string, c: char, b: string)
    ensures var r := a + [c] + b;
      && |r| == |a| + 1 + |b| && r[..|a|] == a && r[|a|] == c && r[|a| + 1..] == b
      && (NoNewline(a) && NoNewline(b) && c != '\n' ==> NoNewline(r))
  {
    var r := a + [c] + b;
    assert r[..|a|] == a;
    assert r[|a| + 1..] == b;
  }

  lemma ReadFieldsOf(s: string, d: DateTime)
    requires FieldValue(PySlice(s, 0, 4), 0) == Success(d.year)
    requires FieldValue(PySlice(s, 4, 6), 4) == Success(d.month)
    requires FieldValue(PySlice(s, 6, 8), 6) == Success(d.day)
    requires FieldValue(PySlice(s, 9, 11), 9) == Success(d.hour)
    requires FieldValue(PySlice(s, 11, 13), 11) == Success(d.minute)
    requires FieldValue(PySlice(s, 13, 15), 13) == Success(d.second)
    ensures ReadFields(s) == Success(d)
  {
  }

  /** A field slice of digits reads back as the number they denote. */
  lemma FieldOfDigits(s: string, lo: nat, hi: nat)
    requires lo < hi <= |s| && AllDigits(s[lo..hi])
    ensures FieldValue(PySlice(s, lo, hi), lo) == Success(DecimalValue(s[lo..hi]) as int)
  {
    assert PySlice(s, lo, hi) == s[lo..hi];
  }

  /** Round trip: parsing what `%Y%m%dT%H%M%SZ` writes gives the same
      timestamp back. */
  lemma ParseCompactStamp(d: UtcDateTime)
    ensures ParseDateTime(CompactStamp(d)) == Success(d)
  {
    var c := CompactStamp(d);
    CompactFieldSlices(d);
    ReadPaddedFields(c, d);
  }

  /** Six zero-filled fields at the field positions read back as the
      numbers they were written from. */
  lemma ReadPaddedFields(s: string, d: DateTime)
    requires 0 <= d.year < 10000 && 0 <= d.month < 100 && 0 <= d.day < 100
    requires 0 <= d.hour < 100 && 0 <= d.minute < 100 && 0 <= d.second < 100
    requires Pow10(2) == 100 && Pow10(4) == 10000 && |s| >= 15
    requires s[0..4] == ZeroPad(d.year, 4) && s[4..6] == ZeroPad(d.month, 2) && s[6..8] == ZeroPad(d.day, 2)
    requires s[9..11] == ZeroPad(d.hour, 2) && s[11..13] == ZeroPad(d.minute, 2) && s[13..15] == ZeroPad(d.second, 2)
    ensures ReadFields(s) == Success(d)
  {
    FieldOfPadded(s, 0, 4, d.year);
    FieldOfPadded(s, 4, 2, d.month);
    FieldOfPadded(s, 6, 2, d.day);
    FieldOfPadded(s, 9, 2, d.hour);
    FieldOfPadded(s, 11, 2, d.minute);
    FieldOfPadded(s, 13, 2, d.second);
    ReadFieldsOf(s, d);
  }

  /** Where each zero-filled field sits in the compact stamp. */
  lemma CompactFieldSlices(d: UtcDateTime)
    ensures Pow10(2) == 100 && Pow10(4) == 10000
    ensures var c := CompactStamp(d);
      && c[0..4] == ZeroPad(d.year, 4) && c[4..6] == ZeroPad(d.month, 2) && c[6..8] == ZeroPad(d.day, 2)
      && c[9..11] == ZeroPad(d.hour, 2) && c[11..13] == ZeroPad(d.minute, 2) && c[13..15] == ZeroPad(d.second, 2)
  {
    Pow10Widths();
    var c := CompactStamp(d);
    var date, time := c[..8], c[9..15];
    assert c[0..4] == date[..4] && c[4..6] == date[4..6] && c[6..8] == date[6..];
    assert c[9..11] == time[..2] && c[11..13] == time[2..4] && c[13..15] == time[4..];
  }

  /** A field slice holding a zero-filled number reads back as that number. */
  lemma FieldOfPadded(s: string, lo: nat, w: nat, n: nat)
    requires 0 < w && lo + w <= |s| && n < Pow10(w)
    requires s[lo..lo + w] == ZeroPad(n, w)
    ensures FieldValue(PySlice(s, lo, lo + w), lo) == Success(n)
  {
    assert PySlice(s, lo, lo + w) == ZeroPad(n, w);
  }

  /** The readable stamp with its separators dropped and `T` and `Z` put
      in: `%Y-%m-%d %H:%M:%S` rearranged into `%Y%m%dT%H%M%SZ`. */
  function ReadableToCompact(r: string): string
    requires |r| == 19
  {
    r[0..4] + r[5..7] + r[8..10] + "T" + r[11..13] + r[14..16] + r[17..19] + "Z"
  }

  /** The `Created:` and `Updated:` lines carry the same digits as the file
      name stem, so the timestamp they show parses back. */
  lemma ParseReadableStamp(d: UtcDateTime)
    ensures ReadableToCompact(ReadableStamp(d)) == CompactStamp(d)
    ensures ParseDateTime(ReadableToCompact(ReadableStamp(d))) == Success(d)
  {
    var r, c := ReadableStamp(d), CompactStamp(d);
    ReadableFieldSlices(d);
    CompactFieldSlices(d);
    SixFields(c);
    ParseCompactStamp(d);
  }

  /** A sixteen-character compact stamp is its six fields with `T` and `Z`. */
  lemma SixFields(c: string)
    requires |c| == 16 && c[8] == 'T' && c[15] == 'Z'
    ensures c == c[0..4] + c[4..6] + c[6..8] + "T" + c[9..11] + c[11..13] + c[13..15] + "Z"
  {
  }

  /** Where each zero-filled field sits in the readable stamp. */
  lemma ReadableFieldSlices(d: UtcDateTime)
    ensures var r := ReadableStamp(d);
      && r[0..4] == ZeroPad(d.year, 4) && r[5..7] == ZeroPad(d.month, 2) && r[8..10] == ZeroPad(d.day, 2)
      && r[11..13] == ZeroPad(d.hour, 2) && r[14..16] == ZeroPad(d.minute, 2) && r[17..19] == ZeroPad(d.second, 2)
      && r[4] == '-' && r[7] == '-' && r[13] == ':' && r[16] == ':'
  {
    ReadableDateSlices(d);
    ReadableTimeSlices(d);
  }

  lemma ReadableDateSlices(d: UtcDateTime)
    ensures var r := ReadableStamp(d);
      && r[0..4] == ZeroPad(d.year, 4) && r[5..7] == ZeroPad(d.month, 2) && r[8..10] == ZeroPad(d.day, 2)
      && r[4] == '-' && r[7] == '-'
  {
    Pow10Widths();
    PiecesAt(ReadableStamp(d), 0, ZeroPad(d.year, 4), ZeroPad(d.month, 2), ZeroPad(d.day, 2), '-');
  }

  lemma ReadableTimeSlices(d: UtcDateTime)
    ensures var r := ReadableStamp(d);
      && r[11..13] == ZeroPad(d.hour, 2) && r[14..16] == ZeroPad(d.minute, 2) && r[17..19] == ZeroPad(d.second, 2)
      && r[13] == ':' && r[16] == ':'
  {
    Pow10Widths();
    PiecesAt(ReadableStamp(d), 11, ZeroPad(d.hour, 2), ZeroPad(d.minute, 2), ZeroPad(d.second, 2), ':');
  }

  /** Where three pieces joined by a one-character separator sit when the
      joined string is found at `lo` in a longer one. */
  lemma PiecesAt(r: string, lo: nat, a: string, b: string, c: string, sep: char)
    requires lo + |a| + |b| + |c| + 2 <= |r|
    requires r[lo..lo + |a| + |b| + |c| + 2] == a + [sep] + b + [sep] + c
    ensures r[lo..lo + |a|] == a && r[lo + |a|] == sep
    ensures r[lo + |a| + 1..lo + |a| + 1 + |b|] == b && r[lo + |a| + 1 + |b|] == sep
    ensures r[lo + |a| + |b| + 2..lo + |a| + |b| + |c| + 2] == c
  {
    var hi := lo + |a| + |b| + |c| + 2;
    var f := a + [sep] + b + [sep] + c;
    assert f[..|a|] == a && f[|a|] == sep;
    assert f[|a| + 1..|a| + 1 + |b|] == b && f[|a| + 1 + |b|] == sep;
    assert f[|a| + |b| + 2..] == c;
    SliceWithin(r, lo, hi, 0, |a|);
    SliceWithin(r, lo, hi, |a| + 1, |a| + 1 + |b|);
    SliceWithin(r, lo, hi, |a| + |b| + 2, |a| + |b| + |c| + 2);
  }

  /** A slice of a slice is a slice of the whole. */
  lemma SliceWithin(r: string, lo: nat, hi: nat, a: nat, b: nat)
    requires lo <= hi <= |r| && a <= b <= hi - lo
    ensures r[lo..hi][a..b] == r[lo + a..lo + b]
    ensures a < b ==> r[lo..hi][a..b][0] == r[lo + a]
  {
    assert forall k :: 0 <= k < b - a ==> r[lo..hi][a..b][k] == r[lo + a + k];
  }

  /** A nineteen-character readable stamp is its six fields with their
      separators. */
  lemma ReadableLayout(r: string)
    requires |r| == 19 && r[4] == '-' && r[7] == '-' && r[10] == ' ' && r[13] == ':' && r[16] == ':'
    ensures r == r[0..4] + "-" + r[5..7] + "-" + r[8..10] + " " + r[11..13] + ":" + r[14..16] + ":" + r[17..19]
  {
  }

  /** Every position `parseDateTime` reads holds an ASCII digit. */
  predicate DigitsAtFieldPositions(s: string) {
    |s| >= 15 && forall i :: 0 <= i < 15 && i != 8 ==> IsDigit(s[i])
  }

  lemma DigitSlice(s: string, lo: nat, hi: nat)
    requires DigitsAtFieldPositions(s) && lo <= hi <= 15 && (hi <= 8 || 9 <= lo)
    ensures AllDigits(s[lo..hi])
  {
    assert forall k :: 0 <= k < hi - lo ==> s[lo..hi][k] == s[lo + k];
  }

  /** The six numbers the digit slices of `s` denote. */
  function DigitFields(s: string): DateTime
    requires DigitsAtFieldPositions(s)
  {
    DigitSlice(s, 0, 4);
    DigitSlice(s, 4, 6);
    DigitSlice(s, 6, 8);
    DigitSlice(s, 9, 11);
    DigitSlice(s, 11, 13);
    DigitSlice(s, 13, 15);
    DateTime(DecimalValue(s[0..4]), DecimalValue(s[4..6]), DecimalValue(s[6..8]),
             DecimalValue(s[9..11]), DecimalValue(s[11..13]), DecimalValue(s[13..15]))
  }

  /** Writing back the three numbers a run of digits denotes, at the same
      widths, reproduces the digits. */
  lemma Fields3OfDigits(x: string, y: string, z: string)
    requires AllDigits(x) && AllDigits(y) && AllDigits(z) && |y| == 2 && |z| == 2
    ensures Fields3(DecimalValue(x), |x|, DecimalValue(y), DecimalValue(z), "") == x + y + z
  {
    Pow10Widths();
    ZeroPadOfDecimal(x);
    ZeroPadOfDecimal(y);
    ZeroPadOfDecimal(z);
    var r := Fields3(DecimalValue(x), |x|, DecimalValue(y), DecimalValue(z), "");
    assert r == r[..|x|] + r[|x|..|x| + 2] + r[|x| + 2..];
  }

  /** The other direction: when the fourteen positions `parseDateTime` reads
      are all digits, it succeeds exactly when they spell a valid calendar
      date and time, and writing the result back with `%Y%m%dT%H%M%SZ`
      reproduces those fourteen digits. */
  lemma ParseDigitStamp(s: string)
    requires DigitsAtFieldPositions(s)
    ensures ParseDateTime(s).Success? <==> IsValid(DigitFields(s))
    ensures ParseDateTime(s).Success? ==>
              && ParseDateTime(s).value == DigitFields(s)
              && CompactStamp(ParseDateTime(s).value)[..8] == s[..8]
              && CompactStamp(ParseDateTime(s).value)[9..15] == s[9..15]
  {
    ReadDigitFields(s);
    if IsValid(DigitFields(s)) {
      CompactOfDigitFields(s);
    }
  }

  lemma CompactOfDigitFields(s: string)
    requires DigitsAtFieldPositions(s) && IsValid(DigitFields(s))
    ensures CompactStamp(DigitFields(s))[..8] == s[..8]
    ensures CompactStamp(DigitFields(s))[9..15] == s[9..15]
  {
    var f: UtcDateTime := DigitFields(s);
    DigitSlice(s, 0, 4);
    DigitSlice(s, 4, 6);
    DigitSlice(s, 6, 8);
    DigitSlice(s, 9, 11);
    DigitSlice(s, 11, 13);
    DigitSlice(s, 13, 15);
    DigitsBackToSlice(s[0..4], s[4..6], s[6..8], f.year, f.month, f.day, s[..8]);
    DigitsBackToSlice(s[9..11], s[11..13], s[13..15], f.hour, f.minute, f.second, s[9..15]);
  }

  lemma DigitsBackToSlice(x: string, y: string, z: string, a: nat, b: nat, c: nat, whole: string)
    requires AllDigits(x) && AllDigits(y) && AllDigits(z) && |y| == 2 && |z| == 2
    requires a == DecimalValue(x) && b == DecimalValue(y) && c == DecimalValue(z)
    requires whole == x + y + z
    ensures Fields3(a, |x|, b, c, "") == whole
  {
    Fields3OfDigits(x, y, z);
  }

  lemma ReadDigitFields(s: string)
    requires DigitsAtFieldPositions(s)
    ensures ReadFields(s) == Success(DigitFields(s))
  {
    DigitSlice(s, 0, 4);
    DigitSlice(s, 4, 6);
    DigitSlice(s, 6, 8);
    DigitSlice(s, 9, 11);
    DigitSlice(s, 11, 13);
    DigitSlice(s, 13, 15);
    FieldOfDigits(s, 0, 4);
    FieldOfDigits(s, 4, 6);
    FieldOfDigits(s, 6, 8);
    FieldOfDigits(s, 9, 11);
    FieldOfDigits(s, 11, 13);
    FieldOfDigits(s, 13, 15);
    ReadFieldsOf(s, DigitFields(s));
  }

  lemma DecimalValueOfTwo(s: string)
    requires |s| == 2 && AllDigits(s)
    ensures DecimalValue(s) == DigitValue(s[0]) * 10 + DigitValue(s[1])
  {
    assert s[..1][..0] == [];
  }

  lemma DecimalValueOfFour(s: string)
    requires |s| == 4 && AllDigits(s)
    ensures DecimalValue(s) == DecimalValue(s[..2]) * 100 + DigitValue(s[2]) * 10 + DigitValue(s[3])
  {
    assert s[..3][..2] == s[..2];
  }

  /** The digit fields of a concrete stamp, one slice at a time. */
  lemma DigitFieldsOf(s: string)
    requires DigitsAtFieldPositions(s)
    ensures DigitFields(s) == DateTime(
      (DigitValue(s[0]) * 10 + DigitValue(s[1])) * 100 + DigitValue(s[2]) * 10 + DigitValue(s[3]),
      DigitValue(s[4]) * 10 + DigitValue(s[5]), DigitValue(s[6]) * 10 + DigitValue(s[7]),
      DigitValue(s[9]) * 10 + DigitValue(s[10]), DigitValue(s[11]) * 10 + DigitValue(s[12]),
      DigitValue(s[13]) * 10 + DigitValue(s[14]))
  {
    DigitSlice(s, 0, 4);
    DigitSlice(s, 4, 6);
    DigitSlice(s, 6, 8);
    DigitSlice(s, 9, 11);
    DigitSlice(s, 11, 13);
    DigitSlice(s, 13, 15);
    DecimalValueOfFour(s[0..4]);
    assert s[0..4][..2] == s[0..2];
    DigitSlice(s, 0, 2);
    DecimalValueOfTwo(s[0..2]);
    DecimalValueOfTwo(s[4..6]);
    DecimalValueOfTwo(s[6..8]);
    DecimalValueOfTwo(s[9..11]);
    DecimalValueOfTwo(s[11..13]);
    DecimalValueOfTwo(s[13..15]);
  }

  /** The timestamps the repository's tests parse. */
  lemma ParseDateTimeExample1()
    ensures ParseDateTime("20100203T040506Z") == Success(DateTime(2010, 2, 3, 4, 5, 6))
  {
    var s := "20100203T040506Z";
    DigitFieldsOf(s);
    assert DigitFields(s) == DateTime(2010, 2, 3, 4, 5, 6);
    ParseDigitStamp(s);
  }

  lemma ParseDateTimeExample2()
    ensures ParseDateTime("20240628T171400Z") == Success(DateTime(2024, 6, 28, 17, 14, 0))
  {
    var s := "20240628T171400Z";
    DigitFieldsOf(s);
    assert DigitFields(s) == DateTime(2024, 6, 28, 17, 14, 0);
    ParseDigitStamp(s);
  }
}

=== FILE: enex_parser.dfy ===
/** The ENEX reader: a fold of a small state record, the note store, over
    the `(action, element)` events of the export file. A fixed table sends
    the events of five tags to their handlers; all other events are
    ignored. */
module EnexParser {
  import opened Wrappers
  import opened DateTimes
  import opened Notes
  import opened NoteListeners

  datatype Action = Start | End

  /** One event of the stream: whether an element opens or closes, its tag,
      and its text (`None` when the element has none). */
  datatype Event = Event(action: Action, tag: string, text: Option<string>)

  // ---------------------------------------------------------------------
  // The handler table

  datatype Handler = NoteHandler | CreatedHandler | UpdatedHandler | TitleHandler | TagsHandler

  /** The tag each handler is registered under. */
  function TagOf(h: Handler): string {
    match h
    case NoteHandler => "note"
    case CreatedHandler => "created"
    case UpdatedHandler => "updated"
    case TitleHandler => "title"
    case TagsHandler => "tag"
  }

  /** The lookup `tag in self.tag_handlers`: the handler registered under
      `tag`, or `None` when no handler is. */
  function HandlerFor(tag: string): (r: Option<Handler>)
    ensures r.Some? ==> TagOf(r.value) == tag
    ensures r.None? ==> forall h: Handler :: TagOf(h) != tag
  {
    if tag == "note" then Some(NoteHandler)
    else if tag == "created" then Some(CreatedHandler)
    else if tag == "updated" then Some(UpdatedHandler)
    else if tag == "title" then Some(TitleHandler)
    else if tag == "tag" then Some(TagsHandler)
    else None
  }

  /** Every handler is found under its own tag. */
  lemma HandlerTableRoundTrip(h: Handler)
    ensures HandlerFor(TagOf(h)) == Some(h)
  {
  }

  // ---------------------------------------------------------------------
  // The note store

  /** Notes are Python objects: the store and the listener hold references
      to them, and a handler changes the object the store refers to. The
      objects live in `heap`, and a reference is an index into it. */
  type NoteRef = nat

  /** `NoteStore`: every note created so far, the current note (`None`
      before the first `note` element) and the registered listener. The
      listener receives references, so it sees later changes to a note it
      already holds. */
  datatype NoteStore = NoteStore(heap: seq<Note>, note: Option<NoteRef>,
                                 listener: Option<NoteListener<Option<NoteRef>>>)

  /** Every reference points into the heap. */
  predicate Valid(st: NoteStore) {
    && (st.note.Some? ==> st.note.value < |st.heap|)
    && (st.listener.Some? ==> RefsInHeap(st.listener.value.notes, |st.heap|))
  }

  predicate RefsInHeap(refs: seq<Option<NoteRef>>, size: nat) {
    forall i :: 0 <= i < |refs| ==> refs[i].Some? ==> refs[i].value < size
  }

  /** `EnexParser()`: no notes and no listener. */
  function NewStore(): (st: NoteStore)
    ensures Valid(st) && st.heap == [] && st.note.None? && st.listener.None?
  {
    NoteStore([], None, None)
  }

  /** `register_note_listener`: replaces any listener registered before. */
  function RegisterNoteListener(st: NoteStore, l: NoteListener<Option<NoteRef>>): (r: NoteStore)
    requires Valid(st) && RefsInHeap(l.notes, |st.heap|)
    ensures Valid(r) && r.listener == Some(l) && r.heap == st.heap && r.note == st.note
  {
    st.(listener := Some(l))
  }

  /** The notes a listener holds, as they are now: each reference looked up
      in the heap. */
  function Received(st: NoteStore, refs: seq<Option<NoteRef>>): (r: seq<Option<Note>>)
    requires RefsInHeap(refs, |st.heap|)
    ensures |r| == |refs|
    ensures forall i :: 0 <= i < |r| ==> r[i] == if refs[i].Some? then Some(st.heap[refs[i].value]) else None
  {
    if refs == [] then []
    else [if refs[0].Some? then Some(st.heap[refs[0].value]) else None] + Received(st, refs[1..])
  }

  /** `newNote`: a fresh, empty note becomes current; every note created
      before stays as it was, and the listener is untouched. */
  function NewNoteIn(st: NoteStore): (r: NoteStore)
    requires Valid(st)
    ensures Valid(r)
    ensures |r.heap| == |st.heap| + 1 && r.heap[..|st.heap|] == st.heap
    ensures r.note == Some(|st.heap|) && r.heap[|st.heap|] == NewNote()
    ensures r.listener == st.listener
  {
    NoteStore(st.heap + [NewNote()], Some(|st.heap|), st.listener)
  }

  /** `endNote`: the current note (possibly `None`) goes to the listener,
      exactly once; without a listener nothing happens. The current note
      is not cleared. */
  function EndNote(st: NoteStore): (r: NoteStore)
    requires Valid(st)
    ensures Valid(r)
    ensures r.heap == st.heap && r.note == st.note
    ensures st.listener.None? ==> r == st
    ensures st.listener.Some? ==> r.listener == Some(NoteListeners.AddNote(st.listener.value, st.note))
  {
    match st.listener
    case None => st
    case Some(l) =>
      var l' := NoteListeners.AddNote(l, st.note);
      assert forall i :: 0 <= i < |l.notes| ==> l'.notes[i] == l.notes[i];
      st.(listener := Some(l'))
  }

  /** Why a handler raised: a field event with no current note (Python's
      `AttributeError` on `None`), a timestamp element without text (the
      `TypeError` of slicing `None`), or a timestamp `parseDateTime`
      refuses. */
  datatype ParseError = NoCurrentNote | TimestampMissing | BadTimestamp(reason: DateError)

  /** The current note, or the error of using it when there is none. */
  function CurrentNote(st: NoteStore): (r: Result<Note, ParseError>)
    requires Valid(st)
    ensures r.Success? <==> st.note.Some?
    ensures r.Success? ==> r.value == st.heap[st.note.value]
    ensures r.Failure? ==> r.error == NoCurrentNote
  {
    match st.note
    case None => Failure(NoCurrentNote)
    case Some(i) => Success(st.heap[i])
  }

  /** Replaces the current note's object by `n`; nothing else changes. */
  function SetCurrent(st: NoteStore, n: Note): (r: NoteStore)
    requires Valid(st) && st.note.Some?
    ensures Valid(r) && r.note == st.note && r.listener == st.listener
    ensures |r.heap| == |st.heap| && r.heap[st.note.value] == n
    ensures forall i :: 0 <= i < |st.heap| && i != st.note.value ==> r.heap[i] == st.heap[i]
  {
    st.(heap := st.heap[st.note.value := n])
  }

  /** `parseDateTime(elem.text)`. */
  function ParseStamp(text: Option<string>): (r: Result<UtcDateTime, ParseError>)
    ensures text.None? ==> r == Failure(TimestampMissing)
    ensures text.Some? && ParseDateTime(text.value).Success? ==> r == Success(ParseDateTime(text.value).value)
    ensures text.Some? && ParseDateTime(text.value).Failure? ==> r == Failure(BadTimestamp(ParseDateTime(text.value).error))
  {
    match text
    case None => Failure(TimestampMissing)
    case Some(s) =>
      match ParseDateTime(s)
      case Success(d) => Success(d)
      case Failure(e) => Failure(BadTimestamp(e))
  }

  /** The handlers whose element text is a timestamp. */
  predicate IsStampHandler(h: Handler) {
    h == CreatedHandler || h == UpdatedHandler
  }

  /** `CreatedHandler`, `UpdatedHandler`, `TitleHandler` and `TagsHandler`
      on an end event: the timestamp is parsed before the current note is
      looked up, so a bad timestamp is reported even without a note. */
  function HandleFieldEnd(st: NoteStore, h: Handler, text: Option<string>): (r: Result<NoteStore, ParseError>)
    requires Valid(st) && h != NoteHandler
    ensures r.Success? <==> st.note.Some? && (IsStampHandler(h) ==> ParseStamp(text).Success?)
    ensures r.Failure? && IsStampHandler(h) && ParseStamp(text).Failure? ==> r.error == ParseStamp(text).error
    ensures r.Failure? && (!IsStampHandler(h) || ParseStamp(text).Success?) ==> r.error == NoCurrentNote
    ensures r.Success? ==> Valid(r.value) && r.value.note == st.note && r.value.listener == st.listener
    ensures r.Success? ==> |r.value.heap| == |st.heap|
    ensures r.Success? ==> forall i :: 0 <= i < |st.heap| && i != st.note.value ==> r.value.heap[i] == st.heap[i]
    ensures r.Success? ==>
              var before, after := st.heap[st.note.value], r.value.heap[st.note.value];
              match h
              case CreatedHandler => after == before.(created := Some(ParseStamp(text).value))
              case UpdatedHandler => after == before.(updated := Some(ParseStamp(text).value))
              case TitleHandler => after == before.(title := text)
              case TagsHandler => after == before.(tags := before.tags + [text])
              case NoteHandler => false
  {
    match h
    case CreatedHandler =>
      var d :- ParseStamp(text);
      var n :- CurrentNote(st);
      Success(SetCurrent(st, n.(created := Some(d))))
    case UpdatedHandler =>
      var d :- ParseStamp(text);
      var n :- CurrentNote(st);
      Success(SetCurrent(st, n.(updated := Some(d))))
    case TitleHandler =>
      var n :- CurrentNote(st);
      Success(SetCurrent(st, n.(title := text)))
    case TagsHandler =>
      var n :- CurrentNote(st);
      Success(SetCurrent(st, n.(tags := n.tags + [text])))
  }

  /** `handleParserEvent`: dispatches on the tag. `note` start makes a new
      current note and `note` end hands it to the listener; the four field
      handlers act on end events only; events of any other tag, and start
      events of the field tags, change nothing. */
  function HandleEvent(st: NoteStore, ev: Event): (r: Result<NoteStore, ParseError>)
    requires Valid(st)
    ensures r.Success? ==> Valid(r.value)
    ensures HandlerFor(ev.tag).None? ==> r == Success(st)
    ensures ev.tag == "note" && ev.action == Start ==> r == Success(NewNoteIn(st))
    ensures ev.tag == "note" && ev.action == End ==> r == Success(EndNote(st))
    ensures ev.tag != "note" && ev.action == Start ==> r == Success(st)
    ensures ev.action == End && HandlerFor(ev.tag).Some? && HandlerFor(ev.tag).value != NoteHandler
            ==> r == HandleFieldEnd(st, HandlerFor(ev.tag).value, ev.text)
  {
    match HandlerFor(ev.tag)
    case None => Success(st)
    case Some(NoteHandler) =>
      if ev.action == Start then Success(NewNoteIn(st)) else Success(EndNote(st))
    case Some(h) =>
      if ev.action == Start then Success(st) else HandleFieldEnd(st, h, ev.text)
  }

  // ---------------------------------------------------------------------
  // The event loop

  /** Where a run stopped: the store after the events that went through,
      how many went through, and the error of the next one if it raised. */
  datatype ParseOutcome = ParseOutcome(store: NoteStore, consumed: nat, error: Option<ParseError>)

  /** Handles `evs` in order and stops at the first handler that raises,
      leaving the store as the events before it left it. */
  function Run(st: NoteStore, evs: seq<Event>): (o: ParseOutcome)
    requires Valid(st)
    ensures Valid(o.store) && o.consumed <= |evs|
    ensures o.error.None? <==> o.consumed == |evs|
    decreases |evs|
  {
    if evs == [] then ParseOutcome(st, 0, None)
    else
      match HandleEvent(st, evs[0])
      case Failure(e) => ParseOutcome(st, 0, Some(e))
      case Success(st') =>
        var o := Run(st', evs[1..]);
        ParseOutcome(o.store, o.consumed + 1, o.error)
  }

  /** A run that raised stopped at the first event that raises: the events
      before it all went through and left the store as the outcome holds
      it, and that event raised the outcome's error. */
  lemma {:induction false} RunStopsAtFirstFailure(st: NoteStore, evs: seq<Event>)
    requires Valid(st)
    ensures var o := Run(st, evs);
      o.error.Some? ==>
        && o.consumed < |evs|
        && Run(st, evs[..o.consumed]) == ParseOutcome(o.store, o.consumed, None)
        && HandleEvent(o.store, evs[o.consumed]) == Failure(o.error.value)
    decreases |evs|
  {
    if evs != [] {
      match HandleEvent(st, evs[0])
      case Failure(e) =>
        assert evs[..0] == [];
      case Success(st') =>
        var o' := Run(st', evs[1..]);
        RunStopsAtFirstFailure(st', evs[1..]);
        if o'.error.Some? {
          var c := o'.consumed;
          assert evs[..c + 1][0] == evs[0] && evs[..c + 1][1..] == evs[1..][..c];
          assert evs[c + 1] == evs[1..][c];
        }
    }
  }

  /** The loop is a fold: running `a + b` runs `a`, and, unless an event
      of `a` raised, then runs `b` from where `a` left the store. */
  lemma {:induction false} RunConcat(st: NoteStore, a: seq<Event>, b: seq<Event>)
    requires Valid(st)
    ensures var oa := Run(st, a);
      Run(st, a + b) == if oa.error.Some? then oa
                        else var ob := Run(oa.store, b); ParseOutcome(ob.store, |a| + ob.consumed, ob.error)
    decreases |a|
  {
    if a == [] {
      assert a + b == b;
    } else {
      assert (a + b)[0] == a[0] && (a + b)[1..] == a[1..] + b;
      match HandleEvent(st, a[0])
      case Failure(_) =>
      case Success(st') =>
        RunConcat(st', a[1..], b);
    }
  }

  /** `parseNoteXML` stops after this many events. */
  const EventLimit: nat := 100

  /** `parseNoteXML`: the event loop over at most the first `EventLimit`
      events of the stream, of any tag. */
  function ParseNoteXml(st: NoteStore, evs: seq<Event>): (o: ParseOutcome)
    requires Valid(st)
    ensures o.consumed <= EventLimit && o.consumed <= |evs|
    ensures |evs| <= EventLimit ==> o == Run(st, evs)
  {
    if |evs| <= EventLimit then
      assert evs[..|evs|] == evs;
      Run(st, evs[..|evs|])
    else
      Run(st, evs[..EventLimit])
  }

  /** Nothing after the first `EventLimit` events can change what
      `parseNoteXML` does. */
  lemma ParseIgnoresEventsPastLimit(st: NoteStore, evs: seq<Event>, more: seq<Event>)
    requires Valid(st) && |evs| >= EventLimit
    ensures ParseNoteXml(st, evs + more) == ParseNoteXml(st, evs)
  {
    assert (evs + more)[..EventLimit] == evs[..EventLimit];
  }

  // ---------------------------------------------------------------------
  // Ignored tags

  /** The events whose tag has a handler, in stream order. */
  function HandledEvents(evs: seq<Event>): (r: seq<Event>)
    ensures |r| <= |evs|
    ensures forall i :: 0 <= i < |r| ==> HandlerFor(r[i].tag).Some?
  {
    if evs == [] then []
    else if HandlerFor(evs[0].tag).Some? then [evs[0]] + HandledEvents(evs[1..])
    else HandledEvents(evs[1..])
  }

  /** Events of tags without a handler are invisible: dropping them from
      the stream leaves the final store and the error as they were. */
  lemma {:induction false} UnhandledTagsAreInvisible(st: NoteStore, evs: seq<Event>)
    requires Valid(st)
    ensures Run(st, HandledEvents(evs)).store == Run(st, evs).store
    ensures Run(st, HandledEvents(evs)).error == Run(st, evs).error
    decreases |evs|
  {
    if evs != [] {
      if HandlerFor(evs[0].tag).Some? {
        assert ([evs[0]] + HandledEvents(evs[1..]))[1..] == HandledEvents(evs[1..]);
        match HandleEvent(st, evs[0])
        case Failure(_) =>
        case Success(st') =>
          UnhandledTagsAreInvisible(st', evs[1..]);
      } else {
        UnhandledTagsAreInvisible(st, evs[1..]);
      }
    }
  }

  // ---------------------------------------------------------------------
  // What the listener receives

  /** The reference definition of delivery: follows only the `note` events,
      tracking the current reference and the next fresh one, and lists the
      current reference at every `note` end. */
  function NoteEnds(current: Option<NoteRef>, next: nat, evs: seq<Event>): seq<Option<NoteRef>>
    decreases |evs|
  {
    if evs == [] then []
    else if evs[0].tag != "note" then NoteEnds(current, next, evs[1..])
    else if evs[0].action == Start then NoteEnds(Some(next), next + 1, evs[1..])
    else [current] + NoteEnds(current, next, evs[1..])
  }

  /** A registered listener ends up holding what it held before followed by
      the current note of every `note` end event that went through, in
      stream order. */
  lemma {:induction false} ListenerReceivesNoteEnds(st: NoteStore, evs: seq<Event>)
    requires Valid(st) && st.listener.Some?
    ensures var o := Run(st, evs);
      o.store.listener == Some(NoteListener(st.listener.value.notes + NoteEnds(st.note, |st.heap|, evs[..o.consumed])))
    decreases |evs|
  {
    var l := st.listener.value;
    var o := Run(st, evs);
    if evs == [] {
      assert l.notes + [] == l.notes;
    } else {
      match HandleEvent(st, evs[0])
      case Failure(_) =>
        assert evs[..0] == [];
        assert l.notes + [] == l.notes;
      case Success(st') =>
        var rest := Run(st', evs[1..]);
        ListenerReceivesNoteEnds(st', evs[1..]);
        assert evs[..o.consumed] == [evs[0]] + evs[1..][..rest.consumed];
        StepDelivers(st, evs[0], st', evs[1..][..rest.consumed]);
    }
  }

  /** One event's share of the deliveries, and how it moves the current
      reference and the heap size that the reference definition tracks. */
  lemma StepDelivers(st: NoteStore, ev: Event, st': NoteStore, tail: seq<Event>)
    requires Valid(st) && st.listener.Some? && HandleEvent(st, ev) == Success(st')
    ensures st'.listener.Some?
    ensures st.listener.value.notes + NoteEnds(st.note, |st.heap|, [ev] + tail)
            == st'.listener.value.notes + NoteEnds(st'.note, |st'.heap|, tail)
  {
    var evs := [ev] + tail;
    assert evs[0] == ev && evs[1..] == tail;
    var l := st.listener.value;
    if ev.tag == "note" && ev.action == End {
      assert st'.listener.value.notes == l.notes + [st.note];
    }
  }

  /** Registering a listener or not changes nothing else: the heap, the
      current note, how far the run gets and its error are the same. */
  lemma {:induction false} ListenerIsPassive(st: NoteStore, evs: seq<Event>, l: Option<NoteListener<Option<NoteRef>>>)
    requires Valid(st) && Valid(st.(listener := l))
    ensures var a, b := Run(st, evs), Run(st.(listener := l), evs);
      && a.store.heap == b.store.heap && a.store.note == b.store.note
      && a.consumed == b.consumed && a.error == b.error
    decreases |evs|
  {
    if evs != [] {
      var st2 := st.(listener := l);
      match HandleEvent(st, evs[0])
      case Failure(_) =>
        HandleEventPassive(st, evs[0], l);
      case Success(st') =>
        HandleEventPassive(st, evs[0], l);
        var st2' := HandleEvent(st2, evs[0]).value;
        assert st2' == st'.(listener := st2'.listener);
        ListenerIsPassive(st', evs[1..], st2'.listener);
    }
  }

  /** The listener takes no part in handling one event. */
  lemma HandleEventPassive(st: NoteStore, ev: Event, l: Option<NoteListener<Option<NoteRef>>>)
    requires Valid(st) && Valid(st.(listener := l))
    ensures HandleEvent(st, ev).Success? <==> HandleEvent(st.(listener := l), ev).Success?
    ensures HandleEvent(st, ev).Failure? ==> HandleEvent(st, ev).error == HandleEvent(st.(listener := l), ev).error
    ensures HandleEvent(st, ev).Success? ==>
              var a, b := HandleEvent(st, ev).value, HandleEvent(st.(listener := l), ev).value;
              a.heap == b.heap && a.note == b.note && Valid(a.(listener := b.listener))
  {
  }

  // ---------------------------------------------------------------------
  // Tags

  /** The end events of a run of `tag` elements with the given texts. */
  function TagEvents(texts: seq<Option<string>>): (r: seq<Event>)
    ensures |r| == |texts|
    ensures forall i :: 0 <= i < |r| ==> r[i] == Event(End, "tag", texts[i])
  {
    if texts == [] then [] else [Event(End, "tag", texts[0])] + TagEvents(texts[1..])
  }

  /** `tag` elements append their texts to the current note in document
      order, keeping duplicates and missing texts; the note's other fields
      and every other note stay as they were. */
  lemma {:induction false} TagsKeepDocumentOrder(st: NoteStore, texts: seq<Option<string>>)
    requires Valid(st) && st.note.Some?
    ensures var o := Run(st, TagEvents(texts));
      var n := st.heap[st.note.value];
      && o.error.None? && o.consumed == |texts|
      && o.store == st.(heap := st.heap[st.note.value := n.(tags := n.tags + texts)])
    decreases |texts|
  {
    var cur := st.note.value;
    var n := st.heap[cur];
    if texts == [] {
      assert n.tags + texts == n.tags;
      assert st.heap[cur := n] == st.heap;
    } else {
      var evs := TagEvents(texts);
      var st' := TagStep(st, texts[0]);
      assert evs[1..] == TagEvents(texts[1..]);
      TagsKeepDocumentOrder(st', texts[1..]);
      TagUpdates(st.heap, cur, n, texts[0], texts[1..]);
      assert [texts[0]] + texts[1..] == texts;
      assert evs[0] == Event(End, "tag", texts[0]);
    }
  }

  /** One `tag` end event appends its text to the current note. */
  lemma TagStep(st: NoteStore, t: Option<string>) returns (st': NoteStore)
    requires Valid(st) && st.note.Some?
    ensures var n := st.heap[st.note.value];
      && st' == st.(heap := st.heap[st.note.value := n.(tags := n.tags + [t])])
      && Valid(st') && st'.note == st.note && st'.heap[st.note.value].tags == n.tags + [t]
      && HandleEvent(st, Event(End, "tag", t)) == Success(st')
  {
    st' := HandleFieldEnd(st, TagsHandler, t).value;
  }

  /** Two successive appends to the tags of the note at `cur` make one. */
  lemma TagUpdates(heap: seq<Note>, cur: nat, n: Note, t: Option<string>, rest: seq<Option<string>>)
    requires cur < |heap|
    ensures heap[cur := n.(tags := n.tags + [t])][cur := n.(tags := n.tags + [t] + rest)]
            == heap[cur := n.(tags := n.tags + ([t] + rest))]
  {
    assert n.tags + [t] + rest == n.tags + ([t] + rest);
  }

  // ---------------------------------------------------------------------
  // A one-note export

  /** The start and end events of one element without children. */
  function Element(tag: string, text: Option<string>): seq<Event> {
    [Event(Start, tag, text), Event(End, tag, text)]
  }

  /** An element of a field tag runs its handler once, on its end event. */
  lemma ElementRun(st: NoteStore, h: Handler, text: Option<string>)
    requires Valid(st) && h != NoteHandler && HandleFieldEnd(st, h, text).Success?
    ensures Run(st, Element(TagOf(h), text)) == ParseOutcome(HandleFieldEnd(st, h, text).value, 2, None)
  {
    var evs := Element(TagOf(h), text);
    var st' := HandleFieldEnd(st, h, text).value;
    HandlerTableRoundTrip(h);
    assert HandleEvent(st, evs[0]) == Success(st);
    assert HandleEvent(st, evs[1]) == Success(st');
    assert evs[1..][1..] == [];
    assert Run(st, evs[1..]) == ParseOutcome(st', 1, None);
  }

  /** The elements of a note with a title, two timestamps and one tag. */
  function FieldEvents(title: string, created: string, updated: string, tag: string): seq<Event> {
    Element("title", Some(title)) + Element("created", Some(created))
    + Element("updated", Some(updated)) + Element("tag", Some(tag))
  }

  /** The events of an export holding one such note, inside the
      `en-export` root, whose events have no handler. */
  function OneNoteEvents(title: string, created: string, updated: string, tag: string): seq<Event> {
    [Event(Start, "en-export", None), Event(Start, "note", None)]
    + FieldEvents(title, created, updated, tag)
    + [Event(End, "note", None), Event(End, "en-export", None)]
  }

  /** The four field elements fill in the current note, whatever it held. */
  lemma FieldsFillCurrentNote(st: NoteStore, title: string, created: string, updated: string, tag: string, c: UtcDateTime, u: UtcDateTime)
    requires Valid(st) && st.note.Some?
    requires ParseDateTime(created) == Success(c) && ParseDateTime(updated) == Success(u)
    ensures var n := st.heap[st.note.value];
      var filled := n.(title := Some(title), created := Some(c), updated := Some(u), tags := n.tags + [Some(tag)]);
      Run(st, FieldEvents(title, created, updated, tag))
        == ParseOutcome(st.(heap := st.heap[st.note.value := filled]), 8, None)
  {
    var cur := st.note.value;
    var n := st.heap[cur];
    var e1, e2 := Element("title", Some(title)), Element("created", Some(created));
    var e3, e4 := Element("updated", Some(updated)), Element("tag", Some(tag));
    FieldEventsHalves(title, created, updated, tag);
    var n2 := n.(title := Some(title), created := Some(c));
    var s2 := st.(heap := st.heap[cur := n2]);
    TitleThenCreated(st, title, created, c);
    UpdatedThenTag(s2, updated, tag, u);
    RunConcat(st, e1 + e2, e3 + e4);
    var filled := n.(title := Some(title), created := Some(c), updated := Some(u), tags := n.tags + [Some(tag)]);
    OverwriteTwice(st.heap, cur, n2, filled);
  }

  /** The field events are the title and created elements, then the others. */
  lemma FieldEventsHalves(title: string, created: string, updated: string, tag: string)
    ensures FieldEvents(title, created, updated, tag)
            == (Element("title", Some(title)) + Element("created", Some(created)))
               + (Element("updated", Some(updated)) + Element("tag", Some(tag)))
  {
  }

  /** Writing a slot twice leaves the second value. */
  lemma OverwriteTwice(heap: seq<Note>, cur: nat, a: Note, b: Note)
    requires cur < |heap|
    ensures heap[cur := a][cur := b] == heap[cur := b]
  {
  }

  /** A `title` then a `created` element set those two fields. */
  lemma TitleThenCreated(st: NoteStore, title: string, created: string, c: UtcDateTime)
    requires Valid(st) && st.note.Some? && ParseDateTime(created) == Success(c)
    ensures var n := st.heap[st.note.value];
      Run(st, Element("title", Some(title)) + Element("created", Some(created)))
        == ParseOutcome(st.(heap := st.heap[st.note.value := n.(title := Some(title), created := Some(c))]), 4, None)
  {
    var cur := st.note.value;
    var n := st.heap[cur];
    var n1 := n.(title := Some(title));
    var n2 := n1.(created := Some(c));
    var s1 := st.(heap := st.heap[cur := n1]);
    TitleElement(st, title);
    CreatedElement(s1, created, c);
    OverwriteTwice(st.heap, cur, n1, n2);
    RunConcat(st, Element("title", Some(title)), Element("created", Some(created)));
  }

  /** An `updated` then a `tag` element set the one and extend the other. */
  lemma UpdatedThenTag(st: NoteStore, updated: string, tag: string, u: UtcDateTime)
    requires Valid(st) && st.note.Some? && ParseDateTime(updated) == Success(u)
    ensures var n := st.heap[st.note.value];
      Run(st, Element("updated", Some(updated)) + Element("tag", Some(tag)))
        == ParseOutcome(st.(heap := st.heap[st.note.value := n.(updated := Some(u), tags := n.tags + [Some(tag)])]), 4, None)
  {
    var cur := st.note.value;
    var n := st.heap[cur];
    var n1 := n.(updated := Some(u));
    var n2 := n1.(tags := n.tags + [Some(tag)]);
    var s1 := st.(heap := st.heap[cur := n1]);
    UpdatedElement(st, updated, u);
    TagElement(s1, tag);
    OverwriteTwice(st.heap, cur, n1, n2);
    RunConcat(st, Element("updated", Some(updated)), Element("tag", Some(tag)));
  }

  /** A `title` element sets the title of the current note. */
  lemma TitleElement(st: NoteStore, title: string)
    requires Valid(st) && st.note.Some?
    ensures var n := st.heap[st.note.value];
      Run(st, Element("title", Some(title)))
        == ParseOutcome(st.(heap := st.heap[st.note.value := n.(title := Some(title))]), 2, None)
  {
    ElementRun(st, TitleHandler, Some(title));
  }

  /** A `created` element whose text parses sets the creation time. */
  lemma CreatedElement(st: NoteStore, created: string, c: UtcDateTime)
    requires Valid(st) && st.note.Some? && ParseDateTime(created) == Success(c)
    ensures var n := st.heap[st.note.value];
      Run(st, Element("created", Some(created)))
        == ParseOutcome(st.(heap := st.heap[st.note.value := n.(created := Some(c))]), 2, None)
  {
    ElementRun(st, CreatedHandler, Some(created));
  }

  /** An `updated` element whose text parses sets the update time. */
  lemma UpdatedElement(st: NoteStore, updated: string, u: UtcDateTime)
    requires Valid(st) && st.note.Some? && ParseDateTime(updated) == Success(u)
    ensures var n := st.heap[st.note.value];
      Run(st, Element("updated", Some(updated)))
        == ParseOutcome(st.(heap := st.heap[st.note.value := n.(updated := Some(u))]), 2, None)
  {
    ElementRun(st, UpdatedHandler, Some(updated));
  }

  /** A `tag` element appends its text to the tags of the current note. */
  lemma TagElement(st: NoteStore, tag: string)
    requires Valid(st) && st.note.Some?
    ensures var n := st.heap[st.note.value];
      Run(st, Element("tag", Some(tag)))
        == ParseOutcome(st.(heap := st.heap[st.note.value := n.(tags := n.tags + [Some(tag)])]), 2, None)
  {
    ElementRun(st, TagsHandler, Some(tag));
  }

  /** A store with a fresh `NoteListener` registered and nothing parsed. */
  function Listening(): (st: NoteStore)
    ensures Valid(st) && st.heap == [] && st.note.None? && st.listener == Some(NoteListener([]))
  {
    RegisterNoteListener(NewStore(), NewListener())
  }

  /** The start of the export up to the end of the note's last field: one
      note exists, it is current, and it holds all four fields. */
  lemma OneNoteFilled(title: string, created: string, updated: string, tag: string, c: UtcDateTime, u: UtcDateTime)
    requires ParseDateTime(created) == Success(c) && ParseDateTime(updated) == Success(u)
    ensures Run(Listening(), [Event(Start, "en-export", None), Event(Start, "note", None)] + FieldEvents(title, created, updated, tag))
            == ParseOutcome(NoteStore([Note(Some(c), Some(u), Some(title), [Some(tag)])], Some(0), Some(NoteListener([]))), 10, None)
  {
    var st := Listening();
    var p0 := [Event(Start, "en-export", None), Event(Start, "note", None)];
    var s1 := NewNoteIn(st);
    assert Run(st, p0) == ParseOutcome(s1, 2, None) by {
      assert p0[1..][1..] == [];
    }
    FieldsFillCurrentNote(s1, title, created, updated, tag, c, u);
    RunConcat(st, p0, FieldEvents(title, created, updated, tag));
    var n := NewNote();
    var full := Note(Some(c), Some(u), Some(title), [Some(tag)]);
    assert s1.heap == [n] && s1.note == Some(0);
    assert n.tags + [Some(tag)] == [Some(tag)];
    assert n.(title := Some(title), created := Some(c), updated := Some(u), tags := n.tags + [Some(tag)]) == full;
    assert [n][0 := full] == [full];
  }

  /** A listener registered before parsing such an export receives exactly
      one note, and that note holds the title, both timestamps and the
      tag. */
  lemma OneNoteIsDelivered(title: string, created: string, updated: string, tag: string, c: UtcDateTime, u: UtcDateTime)
    requires ParseDateTime(created) == Success(c) && ParseDateTime(updated) == Success(u)
    ensures var o := ParseNoteXml(Listening(), OneNoteEvents(title, created, updated, tag));
      && o.error.None? && o.store.listener == Some(NoteListener([Some(0)]))
      && Received(o.store, o.store.listener.value.notes) == [Some(Note(Some(c), Some(u), Some(title), [Some(tag)]))]
  {
    var p := [Event(Start, "en-export", None), Event(Start, "note", None)] + FieldEvents(title, created, updated, tag);
    var tail := [Event(End, "note", None), Event(End, "en-export", None)];
    assert OneNoteEvents(title, created, updated, tag) == p + tail;
    OneNoteFilled(title, created, updated, tag, c, u);
    var s2 := NoteStore([Note(Some(c), Some(u), Some(title), [Some(tag)])], Some(0), Some(NoteListener([])));
    var s3 := EndNote(s2);
    assert Run(s2, tail) == ParseOutcome(s3, 2, None) by {
      assert tail[1..][1..] == [];
    }
    RunConcat(Listening(), p, tail);
  }
}

=== FILE: enml_converter.dfy ===
/** The ENML renderer: a note body, parsed into an element tree, becomes a
    list of Markdown lines; runs of blank lines are cut to two, and the
    lines are joined with line feeds. Before parsing, lines holding an XML
    declaration are dropped and every other line is stripped. */
module EnmlConverter {
  import opened Wrappers
  import opened Text

  /** One element of the parsed body: its tag, its `href` attribute, the
      text before its first child, the text after its end tag, and its
      children in document order. */
  datatype Elem = Elem(tag: string, href: Option<string>, text: Option<string>,
                       tail: Option<string>, children: seq<Elem>)

  /** Every line the renderer emits is either the empty line of a `div` or
      `br`, or a line that is non-blank and has no surrounding whitespace. */
  predicate WellShaped(lines: seq<string>) {
    forall i :: 0 <= i < |lines| ==> lines[i] == "" || (!IsBlank(lines[i]) && IsStripped(lines[i]))
  }

  lemma WellShapedConcat(a: seq<string>, b: seq<string>)
    requires WellShaped(a) && WellShaped(b)
    ensures WellShaped(a + b)
  {
    assert forall i :: 0 <= i < |a + b| ==> (a + b)[i] == if i < |a| then a[i] else b[i - |a|];
  }

  /** A line that starts and ends with a non-space is stripped and not
      blank. */
  lemma TrimmedLine(s: string)
    requires |s| > 0 && !IsSpace(s[0]) && !IsSpace(s[|s| - 1])
    ensures IsStripped(s) && !IsBlank(s)
  {
    StrippedIsFixed(s);
  }

  // ---------------------------------------------------------------------
  // The hooks

  /** The line for an element text or tail: the stripped text when there is
      one and it is not blank, and nothing otherwise. */
  function TextLine(t: Option<string>): (r: seq<string>)
    ensures |r| <= 1
    ensures r == [] <==> t.None? || IsBlank(t.value)
    ensures r != [] ==> r[0] == Strip(t.value) && !IsBlank(r[0]) && IsStripped(r[0])
    ensures WellShaped(r)
  {
    if t.Some? && !IsBlank(t.value) then
      StripIdempotent(t.value);
      [Strip(t.value)]
    else []
  }

  /** `get_anchor_text`: the anchor's stripped text, or its `href` when the
      text is missing or blank and the `href` is not. `None` is the
      `AttributeError` of stripping a missing text when there is no usable
      `href` either. */
  function AnchorText(e: Elem): (r: Option<string>)
    ensures e.text.Some? && !IsBlank(e.text.value) ==> r == Some(Strip(e.text.value))
    ensures (e.text.None? || IsBlank(e.text.value)) && e.href.Some? && !IsBlank(e.href.value)
            ==> r == Some(Strip(e.href.value))
    ensures e.text.Some? && IsBlank(e.text.value) && (e.href.None? || IsBlank(e.href.value)) ==> r == Some("")
    ensures e.text.None? && (e.href.None? || IsBlank(e.href.value)) ==> r.None?
  {
    var text := if (e.text.None? || IsBlank(e.text.value)) && e.href.Some? && !IsBlank(e.href.value)
                then e.href else e.text;
    match text
    case None => None
    case Some(t) => Some(Strip(t))
  }

  /** The one line an anchor becomes: `[text](url)`. */
  function AnchorLine(text: string, url: string): (r: string)
    ensures |r| == |text| + |url| + 4
    ensures r[0] == '[' && r[|r| - 1] == ')'
    ensures r[1..1 + |text|] == text && r[|text| + 3..|r| - 1] == url
    ensures r[|text| + 1] == ']' && r[|text| + 2] == '('
  {
    "[" + text + "](" + url + ")"
  }

  /** The two empty lines a `div` or `br` adds. */
  const Gap: seq<string> := ["", ""]

  /** What `before_elem` appends, and whether the walk then descends. */
  datatype Before = Before(lines: seq<string>, descend: bool)

  /** `before_elem`: an anchor never descends, and becomes one line when it
      has a non-blank `href` (written unstripped) and nothing otherwise; a
      `div` opens with two empty lines; every other element adds nothing. */
  function BeforeElem(e: Elem): (b: Before)
    ensures b.descend <==> e.tag != "a"
    ensures e.tag == "a" ==> (b.lines == [] <==> e.href.None? || IsBlank(e.href.value))
    ensures e.tag == "a" && b.lines != [] ==> AnchorText(e).Some? && b.lines == [AnchorLine(AnchorText(e).value, e.href.value)]
    ensures e.tag == "div" ==> b.lines == Gap
    ensures e.tag != "a" && e.tag != "div" ==> b.lines == []
    ensures WellShaped(b.lines)
  {
    if e.tag == "a" then
      if e.href.Some? && !IsBlank(e.href.value) then
        var line := AnchorLine(AnchorText(e).value, e.href.value);
        TrimmedLine(line);
        Before([line], false)
      else Before([], false)
    else if e.tag == "div" then Before(Gap, true)
    else Before([], true)
  }

  /** `after_elem`: a `div` or a `br` closes with two empty lines; every
      other element adds nothing. */
  function AfterElem(e: Elem): (r: seq<string>)
    ensures e.tag == "div" || e.tag == "br" ==> r == Gap
    ensures e.tag != "div" && e.tag != "br" ==> r == []
  {
    if e.tag == "div" || e.tag == "br" then Gap else []
  }

  // ---------------------------------------------------------------------
  // The walk

  /** `elem_to_markdown`: the element's own lines, then, unless it is an
      anchor, its text and its children's lines in document order, then
      its closing lines and its tail. */
  function ElemToMarkdown(e: Elem): seq<string>
    decreases e
  {
    var b := BeforeElem(e);
    var inner := if b.descend then TextLine(e.text) + ChildrenToMarkdown(e.children) else [];
    b.lines + inner + AfterElem(e) + TextLine(e.tail)
  }

  /** The lines of a sequence of siblings, one after the other. */
  function ChildrenToMarkdown(cs: seq<Elem>): seq<string>
    decreases cs
  {
    if cs == [] then [] else ElemToMarkdown(cs[0]) + ChildrenToMarkdown(cs[1..])
  }

  /** No text-derived line is blank or has whitespace around it: every line
      of the rendering is an empty `div`/`br` line or a non-blank stripped
      one. */
  lemma {:induction false} RenderingIsWellShaped(e: Elem)
    ensures WellShaped(ElemToMarkdown(e))
    decreases e
  {
    var b := BeforeElem(e);
    var inner := if b.descend then TextLine(e.text) + ChildrenToMarkdown(e.children) else [];
    ChildrenAreWellShaped(e.children);
    WellShapedConcat(TextLine(e.text), ChildrenToMarkdown(e.children));
    WellShapedConcat(b.lines, inner);
    WellShapedConcat(b.lines + inner, AfterElem(e));
    WellShapedConcat(b.lines + inner + AfterElem(e), TextLine(e.tail));
  }

  lemma {:induction false} ChildrenAreWellShaped(cs: seq<Elem>)
    ensures WellShaped(ChildrenToMarkdown(cs))
    decreases cs
  {
    if cs != [] {
      RenderingIsWellShaped(cs[0]);
      ChildrenAreWellShaped(cs[1..]);
      WellShapedConcat(ElemToMarkdown(cs[0]), ChildrenToMarkdown(cs[1..]));
    }
  }

  /** An anchor never descends: its children make no difference. */
  lemma AnchorIgnoresChildren(e: Elem, cs: seq<Elem>)
    requires e.tag == "a"
    ensures ElemToMarkdown(e.(children := cs)) == ElemToMarkdown(e)
  {
  }

  /** An anchor becomes one `[text](url)` line when its `href` is not
      blank, and no line otherwise; its tail follows either way. */
  lemma AnchorLines(e: Elem)
    requires e.tag == "a"
    ensures e.href.Some? && !IsBlank(e.href.value) ==>
              ElemToMarkdown(e) == [AnchorLine(AnchorText(e).value, e.href.value)] + TextLine(e.tail)
    ensures e.href.None? || IsBlank(e.href.value) ==> ElemToMarkdown(e) == TextLine(e.tail)
  {
    var b := BeforeElem(e);
    assert !b.descend && AfterElem(e) == [];
    assert ElemToMarkdown(e) == b.lines + [] + [] + TextLine(e.tail);
  }

  /** A `div` puts two empty lines before its content and two after it; a
      `br` only after. */
  lemma DivAndBreakLines(e: Elem)
    requires e.tag == "div" || e.tag == "br"
    ensures var content := TextLine(e.text) + ChildrenToMarkdown(e.children);
      ElemToMarkdown(e) == (if e.tag == "div" then Gap else []) + content + Gap + TextLine(e.tail)
  {
  }

  /** Every element other than an anchor becomes, in order: its opening
      lines (two empty ones for a `div`), the line of its text, the lines of
      its children, its closing lines (two empty ones for a `div` or `br`)
      and the line of its tail. */
  lemma ElementLines(e: Elem)
    requires e.tag != "a"
    ensures ElemToMarkdown(e)
            == (if e.tag == "div" then Gap else []) + TextLine(e.text) + ChildrenToMarkdown(e.children)
               + (if e.tag == "div" || e.tag == "br" then Gap else []) + TextLine(e.tail)
  {
    var open: seq<string> := if e.tag == "div" then Gap else [];
    ConcatAssoc(open, TextLine(e.text), ChildrenToMarkdown(e.children));
    if e.tag == "div" || e.tag == "br" {
      DivAndBreakLines(e);
    } else {
      assert BeforeElem(e).lines == [] && AfterElem(e) == [];
    }
  }

  /** The siblings are walked one after the other: the lines of `a + b` are
      those of `a` followed by those of `b`. */
  lemma {:induction false} ChildrenConcat(a: seq<Elem>, b: seq<Elem>)
    ensures ChildrenToMarkdown(a + b) == ChildrenToMarkdown(a) + ChildrenToMarkdown(b)
    decreases |a|
  {
    if a == [] {
      assert a + b == b;
      assert ChildrenToMarkdown(a) + ChildrenToMarkdown(b) == [] + ChildrenToMarkdown(b);
    } else {
      var x := ElemToMarkdown(a[0]);
      assert (a + b)[0] == a[0] && (a + b)[1..] == a[1..] + b;
      assert ChildrenToMarkdown(a + b) == x + ChildrenToMarkdown(a[1..] + b);
      ChildrenConcat(a[1..], b);
      assert ChildrenToMarkdown(a) == x + ChildrenToMarkdown(a[1..]);
      ConcatAssoc(x, ChildrenToMarkdown(a[1..]), ChildrenToMarkdown(b));
    }
  }

  /** How many empty lines the `div` and `br` elements of a tree contribute:
      four for a `div`, two for a `br`, none from inside an anchor. */
  function Breaks(e: Elem): nat
    decreases e
  {
    if e.tag == "a" then 0
    else (if e.tag == "div" then 4 else if e.tag == "br" then 2 else 0) + ChildBreaks(e.children)
  }

  function ChildBreaks(cs: seq<Elem>): nat
    decreases cs
  {
    if cs == [] then 0 else Breaks(cs[0]) + ChildBreaks(cs[1..])
  }

  /** How many blank lines a list holds. */
  function BlankCount(lines: seq<string>): nat
    decreases |lines|
  {
    if lines == [] then 0 else (if IsBlank(lines[0]) then 1 else 0) + BlankCount(lines[1..])
  }

  lemma {:induction false} BlankCountConcat(a: seq<string>, b: seq<string>)
    ensures BlankCount(a + b) == BlankCount(a) + BlankCount(b)
    decreases |a|
  {
    if a != [] {
      assert (a + b)[1..] == a[1..] + b;
      BlankCountConcat(a[1..], b);
    } else {
      assert a + b == b;
    }
  }

  /** The blank lines of the rendering are exactly those of the `div` and
      `br` elements: texts, tails and anchors never give a blank line. */
  lemma {:induction false} BlankLinesComeFromBreaks(e: Elem)
    ensures BlankCount(ElemToMarkdown(e)) == Breaks(e)
    decreases e
  {
    var b := BeforeElem(e);
    var inner := if b.descend then TextLine(e.text) + ChildrenToMarkdown(e.children) else [];
    if b.descend {
      ChildBlankLines(e.children);
      BlankCountConcat(TextLine(e.text), ChildrenToMarkdown(e.children));
    }
    BlankCountConcat(b.lines, inner);
    BlankCountConcat(b.lines + inner, AfterElem(e));
    BlankCountConcat(b.lines + inner + AfterElem(e), TextLine(e.tail));
    if e.tag == "a" && b.lines != [] {
      assert !IsBlank(b.lines[0]);
    }
  }

  lemma {:induction false} ChildBlankLines(cs: seq<Elem>)
    ensures BlankCount(ChildrenToMarkdown(cs)) == ChildBreaks(cs)
    decreases cs
  {
    if cs != [] {
      BlankLinesComeFromBreaks(cs[0]);
      ChildBlankLines(cs[1..]);
      BlankCountConcat(ElemToMarkdown(cs[0]), ChildrenToMarkdown(cs[1..]));
    }
  }

  // ---------------------------------------------------------------------
  // Collapsing blank lines

  /** No three lines in a row are blank. */
  predicate NoThreeBlanks(lines: seq<string>) {
    forall i :: 0 <= i < |lines| - 2 ==> !(IsBlank(lines[i]) && IsBlank(lines[i + 1]) && IsBlank(lines[i + 2]))
  }

  /** How many blank lines the list starts with. */
  function LeadingBlanks(lines: seq<string>): (k: nat)
    ensures k <= |lines|
    decreases |lines|
  {
    if lines != [] && IsBlank(lines[0]) then 1 + LeadingBlanks(lines[1..]) else 0
  }

  /** The loop of `remove_multiple_blank_lines` from a point where the
      previous `blanks` lines were blank: a non-blank line is kept and
      resets the count, a blank line is kept only while fewer than two
      blank lines precede it. */
  function CollapseFrom(lines: seq<string>, blanks: nat): seq<string>
    decreases |lines|
  {
    if lines == [] then []
    else if !IsBlank(lines[0]) then [lines[0]] + CollapseFrom(lines[1..], 0)
    else (if blanks < 2 then [lines[0]] else []) + CollapseFrom(lines[1..], blanks + 1)
  }

  /** `remove_multiple_blank_lines`. */
  function RemoveMultipleBlankLines(lines: seq<string>): (r: seq<string>)
    ensures NoThreeBlanks(r) && LeadingBlanks(r) <= 2
    ensures |r| <= |lines|
  {
    CollapseShape(lines, 0);
    CollapseFrom(lines, 0)
  }

  /** Putting a line in front keeps three blank lines apart unless it is
      blank and two blank lines already lead. */
  lemma ConsNoThreeBlanks(l: string, r: seq<string>)
    requires NoThreeBlanks(r)
    requires !IsBlank(l) || LeadingBlanks(r) < 2
    ensures NoThreeBlanks([l] + r)
  {
    var s := [l] + r;
    forall i | 0 <= i < |s| - 2
      ensures !(IsBlank(s[i]) && IsBlank(s[i + 1]) && IsBlank(s[i + 2]))
    {
      if i > 0 {
        assert s[i] == r[i - 1] && s[i + 1] == r[i] && s[i + 2] == r[i + 1];
      } else if IsBlank(l) {
        assert LeadingBlanks(r) >= 1 ==> LeadingBlanks(r) == 1 + LeadingBlanks(r[1..]);
      }
    }
  }

  /** The output never has three blank lines in a row, and it starts with
      at most as many blank lines as may still follow `blanks` blank ones. */
  lemma {:induction false} CollapseShape(lines: seq<string>, blanks: nat)
    ensures var r := CollapseFrom(lines, blanks);
      && NoThreeBlanks(r) && |r| <= |lines|
      && LeadingBlanks(r) <= (if blanks >= 2 then 0 else 2 - blanks)
    decreases |lines|
  {
    if lines != [] {
      var l := lines[0];
      if !IsBlank(l) {
        CollapseShape(lines[1..], 0);
        ConsNoThreeBlanks(l, CollapseFrom(lines[1..], 0));
      } else {
        CollapseShape(lines[1..], blanks + 1);
        if blanks < 2 {
          var r' := CollapseFrom(lines[1..], blanks + 1);
          ConsNoThreeBlanks(l, r');
          assert ([l] + r')[1..] == r';
        }
      }
    }
  }

  /** `IsSubsequence(a, b)`: `a` is `b` with some lines left out. */
  predicate IsSubsequence(a: seq<string>, b: seq<string>)
    decreases |b|
  {
    if a == [] then true
    else if b == [] then false
    else (a[0] == b[0] && IsSubsequence(a[1..], b[1..])) || IsSubsequence(a, b[1..])
  }

  /** The non-blank lines of a list, in order. */
  function NonBlankLines(lines: seq<string>): (r: seq<string>)
    ensures forall i :: 0 <= i < |r| ==> !IsBlank(r[i])
    decreases |lines|
  {
    if lines == [] then []
    else if IsBlank(lines[0]) then NonBlankLines(lines[1..])
    else [lines[0]] + NonBlankLines(lines[1..])
  }

  /** The collapser only leaves lines out: its output is a subsequence of
      its input. */
  lemma {:induction false} CollapseIsSubsequence(lines: seq<string>, blanks: nat)
    ensures IsSubsequence(CollapseFrom(lines, blanks), lines)
    decreases |lines|
  {
    if lines != [] {
      var r := CollapseFrom(lines, blanks);
      if !IsBlank(lines[0]) {
        CollapseIsSubsequence(lines[1..], 0);
        assert r[0] == lines[0] && r[1..] == CollapseFrom(lines[1..], 0);
      } else if blanks < 2 {
        CollapseIsSubsequence(lines[1..], blanks + 1);
        assert r[0] == lines[0] && r[1..] == CollapseFrom(lines[1..], blanks + 1);
      } else {
        CollapseIsSubsequence(lines[1..], blanks + 1);
        assert r == CollapseFrom(lines[1..], blanks + 1);
      }
    }
  }

  /** Every non-blank line is kept, in its original order: the collapser
      leaves out blank lines only. */
  lemma {:induction false} CollapseKeepsText(lines: seq<string>, blanks: nat)
    ensures NonBlankLines(CollapseFrom(lines, blanks)) == NonBlankLines(lines)
    decreases |lines|
  {
    if lines != [] {
      var l := lines[0];
      if !IsBlank(l) {
        CollapseKeepsText(lines[1..], 0);
        NonBlankCons(l, CollapseFrom(lines[1..], 0));
        NonBlankCons(l, lines[1..]);
        assert [l] + lines[1..] == lines;
      } else {
        CollapseKeepsText(lines[1..], blanks + 1);
        NonBlankCons(l, lines[1..]);
        assert [l] + lines[1..] == lines;
        if blanks < 2 {
          NonBlankCons(l, CollapseFrom(lines[1..], blanks + 1));
        } else {
          assert CollapseFrom(lines, blanks) == CollapseFrom(lines[1..], blanks + 1);
        }
      }
    }
  }

  lemma NonBlankCons(l: string, r: seq<string>)
    ensures NonBlankLines([l] + r) == (if IsBlank(l) then [] else [l]) + NonBlankLines(r)
  {
    assert ([l] + r)[1..] == r;
  }

  /** A list whose blank runs are already short enough is left as it is. */
  lemma {:induction false} CollapseKeepsShortRuns(lines: seq<string>, blanks: nat)
    requires NoThreeBlanks(lines)
    requires LeadingBlanks(lines) == 0 || LeadingBlanks(lines) + blanks <= 2
    ensures CollapseFrom(lines, blanks) == lines
    decreases |lines|
  {
    if lines != [] {
      var rest := lines[1..];
      assert NoThreeBlanks(rest) by {
        forall i | 0 <= i < |rest| - 2
          ensures !(IsBlank(rest[i]) && IsBlank(rest[i + 1]) && IsBlank(rest[i + 2]))
        {
          assert rest[i] == lines[i + 1] && rest[i + 1] == lines[i + 2] && rest[i + 2] == lines[i + 3];
        }
      }
      if !IsBlank(lines[0]) {
        ThreeBlanksLead(rest);
        CollapseKeepsShortRuns(rest, 0);
      } else {
        CollapseKeepsShortRuns(rest, blanks + 1);
      }
      assert [lines[0]] + rest == lines;
    }
  }

  /** Without three blank lines in a row, at most two lead. */
  lemma ThreeBlanksLead(lines: seq<string>)
    requires NoThreeBlanks(lines)
    ensures LeadingBlanks(lines) <= 2
  {
    ThreeLeading(lines);
  }

  lemma ThreeLeading(lines: seq<string>)
    ensures LeadingBlanks(lines) >= 3 ==>
              |lines| >= 3 && IsBlank(lines[0]) && IsBlank(lines[1]) && IsBlank(lines[2])
  {
    if LeadingBlanks(lines) >= 3 {
      assert LeadingBlanks(lines[1..]) >= 2;
      assert LeadingBlanks(lines[1..][1..]) >= 1;
    }
  }

  /** The collapser leaves a list alone exactly when it has no three blank
      lines in a row. */
  lemma CollapseFixedPoint(lines: seq<string>)
    ensures RemoveMultipleBlankLines(lines) == lines <==> NoThreeBlanks(lines)
  {
    if NoThreeBlanks(lines) {
      ThreeBlanksLead(lines);
      CollapseKeepsShortRuns(lines, 0);
    }
  }

  /** Collapsing twice is collapsing once. */
  lemma CollapseIdempotent(lines: seq<string>)
    ensures RemoveMultipleBlankLines(RemoveMultipleBlankLines(lines)) == RemoveMultipleBlankLines(lines)
  {
    CollapseFixedPoint(RemoveMultipleBlankLines(lines));
  }

  /** How many lines of a blank run of `n` the collapser keeps when
      `blanks` blank lines came before it. */
  function KeptOfRun(n: nat, blanks: nat): (k: nat)
    ensures k <= n && k <= 2
  {
    if blanks >= 2 then 0 else if n < 2 - blanks then n else 2 - blanks
  }

  /** A run of blank lines is cut to its first lines, two at most, and the
      count carries over to what follows. */
  lemma {:induction false} CollapseRun(run: seq<string>, rest: seq<string>, blanks: nat)
    requires forall i :: 0 <= i < |run| ==> IsBlank(run[i])
    ensures CollapseFrom(run + rest, blanks) == run[..KeptOfRun(|run|, blanks)] + CollapseFrom(rest, blanks + |run|)
    decreases |run|
  {
    if run == [] {
      assert run + rest == rest;
    } else {
      var lines := run + rest;
      assert lines[0] == run[0] && lines[1..] == run[1..] + rest;
      CollapseRun(run[1..], rest, blanks + 1);
      if blanks < 2 {
        var k := KeptOfRun(|run[1..]|, blanks + 1);
        HeadAndPrefix(run, k);
      }
    }
  }

  /** The first element followed by a prefix of the rest is a prefix. */
  lemma HeadAndPrefix<T>(xs: seq<T>, k: nat)
    requires k < |xs|
    ensures [xs[0]] + xs[1..][..k] == xs[..k + 1]
  {
  }

  /** A non-blank line resets the count: what came before it no longer
      matters. */
  lemma CollapseAtText(l: string, rest: seq<string>, blanks: nat)
    requires !IsBlank(l)
    ensures CollapseFrom([l] + rest, blanks) == [l] + CollapseFrom(rest, 0)
  {
    assert ([l] + rest)[0] == l && ([l] + rest)[1..] == rest;
  }

  // ---------------------------------------------------------------------
  // Dropping XML declarations

  /** The text that marks a line holding an XML declaration. */
  const XmlDeclMarker := "<?xml "

  /** The lines `remove_xml_pi` keeps, stripped: those without the marker. */
  function KeptLines(lines: seq<string>): (r: seq<string>)
    ensures |r| <= |lines|
    ensures forall i :: 0 <= i < |r| ==> !Contains(r[i], XmlDeclMarker) && IsStripped(r[i])
    decreases |lines|
  {
    if lines == [] then []
    else if Contains(lines[0], XmlDeclMarker) then KeptLines(lines[1..])
    else
      StripAvoids(lines[0], XmlDeclMarker);
      [Strip(lines[0])] + KeptLines(lines[1..])
  }

  /** Kept lines have no line feed when the input lines have none. */
  lemma {:induction false} KeptLinesNoNewlines(lines: seq<string>)
    requires NoNewlines(lines)
    ensures NoNewlines(KeptLines(lines))
    decreases |lines|
  {
    if lines != [] {
      assert NoNewline(lines[0]);
      assert NoNewlines(lines[1..]) by {
        assert forall i :: 0 <= i < |lines[1..]| ==> lines[1..][i] == lines[i + 1];
      }
      KeptLinesNoNewlines(lines[1..]);
      if !Contains(lines[0], XmlDeclMarker) {
        StripKeepsNoNewline(lines[0]);
        NoNewlinesConcat([Strip(lines[0])], KeptLines(lines[1..]));
      }
    }
  }

  /** One line: a line holding the marker is dropped, any other is kept
      stripped. */
  lemma KeptLinesOne(l: string)
    ensures KeptLines([l]) == if Contains(l, XmlDeclMarker) then [] else [Strip(l)]
  {
    assert [l][1..] == [];
  }

  /** The filter works line by line: filtering `a + b` filters `a`, then
      `b`. With `KeptLinesOne` this fixes the kept lines as the stripped
      unmarked lines of the input, in order. */
  lemma {:induction false} KeptLinesConcat(a: seq<string>, b: seq<string>)
    ensures KeptLines(a + b) == KeptLines(a) + KeptLines(b)
    decreases |a|
  {
    if a == [] {
      assert a + b == b;
    } else {
      assert (a + b)[0] == a[0] && (a + b)[1..] == a[1..] + b;
      KeptLinesConcat(a[1..], b);
      if !Contains(a[0], XmlDeclMarker) {
        ConcatAssoc([Strip(a[0])], KeptLines(a[1..]), KeptLines(b));
      }
    }
  }

  lemma StripAvoids(s: string, pat: string)
    ensures !Contains(s, pat) ==> !Contains(Strip(s), pat)
  {
    if Contains(Strip(s), pat) {
      StripKeepsAbsence(s, pat);
    }
  }

  /** How many lines hold the marker. */
  function MarkedCount(lines: seq<string>): nat
    decreases |lines|
  {
    if lines == [] then 0 else (if Contains(lines[0], XmlDeclMarker) then 1 else 0) + MarkedCount(lines[1..])
  }

  /** One line is kept for every line without the marker. */
  lemma {:induction false} KeptLinesCount(lines: seq<string>)
    ensures |KeptLines(lines)| + MarkedCount(lines) == |lines|
    decreases |lines|
  {
    if lines != [] {
      KeptLinesCount(lines[1..]);
    }
  }

  /** The filter leaves a list alone exactly when no line has the marker
      and every line is stripped already. */
  lemma {:induction false} KeptLinesFixedPoint(lines: seq<string>)
    ensures KeptLines(lines) == lines <==>
            forall i :: 0 <= i < |lines| ==> !Contains(lines[i], XmlDeclMarker) && IsStripped(lines[i])
    decreases |lines|
  {
    if lines != [] && forall i :: 0 <= i < |lines| ==> !Contains(lines[i], XmlDeclMarker) && IsStripped(lines[i]) {
      assert !Contains(lines[0], XmlDeclMarker) && IsStripped(lines[0]);
      StrippedIsFixed(lines[0]);
      assert forall i :: 0 <= i < |lines[1..]| ==> lines[1..][i] == lines[i + 1];
      KeptLinesFixedPoint(lines[1..]);
      assert [lines[0]] + lines[1..] == lines;
    }
  }

  /** `remove_xml_pi`: split into lines, drop those holding an XML
      declaration, strip the rest, and join them with line feeds. */
  function RemoveXmlPi(content: string): (r: string)
    ensures !Contains(r, XmlDeclMarker)
    ensures var kept := KeptLines(SplitLines(content));
      && (kept == [] ==> r == [])
      && (kept != [] ==> SplitAtNewlines(r) == kept)
  {
    var kept := KeptLines(SplitLines(content));
    if kept == [] then ""
    else
      forall i | 0 <= i < |kept| ensures !Contains(kept[i], XmlDeclMarker) {
      }
      JoinAvoids(kept, XmlDeclMarker);
      KeptLinesNoNewlines(SplitLines(content));
      SplitJoin(kept);
      Join(kept, "\n")
  }

  // ---------------------------------------------------------------------
  // The converter

  /** Why a conversion raised: the XML parser refused the content, or the
      root element is not `en-note` (the `assert` of `to_markdown`). */
  datatype ConvertError = XmlSyntaxError | NotEnNote

  /** The Markdown lines of a body whose root is `root`, before joining. */
  function MarkdownLines(root: Elem): (r: seq<string>)
    ensures NoThreeBlanks(r) && WellShaped(r)
    ensures NonBlankLines(r) == NonBlankLines(ElemToMarkdown(root))
    ensures IsSubsequence(r, ElemToMarkdown(root))
  {
    var lines := ElemToMarkdown(root);
    RenderingIsWellShaped(root);
    CollapseKeepsText(lines, 0);
    CollapseIsSubsequence(lines, 0);
    SubsequenceWellShaped(RemoveMultipleBlankLines(lines), lines);
    RemoveMultipleBlankLines(lines)
  }

  lemma {:induction false} SubsequenceWellShaped(a: seq<string>, b: seq<string>)
    requires IsSubsequence(a, b) && WellShaped(b)
    ensures WellShaped(a)
    decreases |b|
  {
    if a != [] {
      assert b != [];
      assert WellShaped(b[1..]) by {
        assert forall i :: 0 <= i < |b[1..]| ==> b[1..][i] == b[i + 1];
      }
      if a[0] == b[0] && IsSubsequence(a[1..], b[1..]) {
        SubsequenceWellShaped(a[1..], b[1..]);
        assert forall i :: 1 <= i < |a| ==> a[i] == a[1..][i - 1];
      } else {
        SubsequenceWellShaped(a, b[1..]);
      }
    }
  }

  /** `ENMLConverter.to_markdown`. The XML parser is a parameter: `parse`
      gives the root element of a well-formed document and `None` when the
      document is not. It is given the content after `remove_xml_pi`. */
  function ToMarkdown(content: string, parse: string -> Option<Elem>): (r: Result<string, ConvertError>)
    ensures parse(RemoveXmlPi(content)).None? ==> r == Failure(XmlSyntaxError)
    ensures parse(RemoveXmlPi(content)).Some? ==>
              (r.Success? <==> parse(RemoveXmlPi(content)).value.tag == "en-note")
    ensures r.Failure? && parse(RemoveXmlPi(content)).Some? ==> r.error == NotEnNote
    ensures r.Success? ==> r.value == Join(MarkdownLines(parse(RemoveXmlPi(content)).value), "\n")
  {
    match parse(RemoveXmlPi(content))
    case None => Failure(XmlSyntaxError)
    case Some(root) =>
      if root.tag != "en-note" then Failure(NotEnNote)
      else Success(Join(MarkdownLines(root), "\n"))
  }

  // ---------------------------------------------------------------------
  // Examples

  /** A body with only text renders as that text, stripped. */
  lemma TextExample(t: string)
    requires !IsBlank(t)
    ensures Join(MarkdownLines(Elem("en-note", None, Some(t), None, [])), "\n") == Strip(t)
  {
    var e := Elem("en-note", None, Some(t), None, []);
    assert ElemToMarkdown(e) == [Strip(t)];
    assert RemoveMultipleBlankLines([Strip(t)]) == [Strip(t)];
  }

  /** An anchor with a text renders as `[text](url)`; without a text, the
      `href` stands in for it. */
  lemma AnchorExample(t: Option<string>, url: string)
    requires !IsBlank(url)
    ensures var a := Elem("a", Some(url), t, None, []);
      var shown := if t.Some? && !IsBlank(t.value) then Strip(t.value) else Strip(url);
      Join(MarkdownLines(Elem("en-note", None, None, None, [a])), "\n") == "[" + shown + "](" + url + ")"
  {
    var a := Elem("a", Some(url), t, None, []);
    var line := ElemToMarkdown(a)[0];
    assert ElemToMarkdown(a) == [line];
    assert ChildrenToMarkdown([a]) == [line] by {
      assert [a][1..] == [];
    }
    assert ElemToMarkdown(Elem("en-note", None, None, None, [a])) == [line];
    assert !IsBlank(line);
    assert RemoveMultipleBlankLines([line]) == [line];
  }

  /** An anchor without an `href` renders as nothing. */
  lemma AnchorWithoutUrlExample(t: Option<string>)
    ensures MarkdownLines(Elem("en-note", None, None, None, [Elem("a", None, t, None, [])])) == []
  {
    var a := Elem("a", None, t, None, []);
    assert ChildrenToMarkdown([a]) == [] by {
      assert [a][1..] == [];
    }
  }

  /** A root whose text and tail are missing or blank renders as its
      children. */
  lemma BareRoot(text: Option<string>, tail: Option<string>, cs: seq<Elem>)
    requires TextLine(text) == [] && TextLine(tail) == []
    ensures ElemToMarkdown(Elem("en-note", None, text, tail, cs)) == ChildrenToMarkdown(cs)
  {
    var e := Elem("en-note", None, text, tail, cs);
    var kids := ChildrenToMarkdown(cs);
    var b := BeforeElem(e);
    assert b.lines == [] && b.descend;
    assert AfterElem(e) == [];
    assert ElemToMarkdown(e) == [] + ([] + kids) + [] + [];
    assert [] + ([] + kids) + [] + [] == kids;
  }

  lemma OnlyChild(c: Elem)
    ensures ChildrenToMarkdown([c]) == ElemToMarkdown(c)
  {
    assert [c][1..] == [];
  }

  /** The lines of a `div` holding only text. */
  lemma DivLines(t: string)
    requires !IsBlank(t)
    ensures ElemToMarkdown(Elem("div", None, Some(t), None, [])) == Gap + [Strip(t)] + Gap
  {
    DivAndBreakLines(Elem("div", None, Some(t), None, []));
  }

  /** A text between two gaps has no three blank lines in a row, so the
      collapser keeps it. */
  lemma GapTextGap(x: string)
    requires !IsBlank(x)
    ensures RemoveMultipleBlankLines(Gap + [x] + Gap) == Gap + [x] + Gap
  {
    var lines := Gap + [x] + Gap;
    assert lines == ["", "", x, "", ""];
    assert NoThreeBlanks(lines) by {
      assert !IsBlank(lines[2]);
    }
    CollapseFixedPoint(lines);
  }

  /** Joined, a text between two gaps is the text between two pairs of line
      feeds. */
  lemma JoinGapTextGap(x: string)
    ensures Join(Gap + [x] + Gap, "\n") == "\n\n" + x + "\n\n"
  {
    assert Gap + [x] + Gap == ["", "", x, "", ""];
    JoinFive("", "", x, "", "", "\n");
    EmptyEnds("\n", x);
    assert "\n" + "\n" == "\n\n";
  }

  lemma EmptyEnds(sep: string, x: string)
    ensures "" + sep + "" + sep + x + sep + "" + sep + "" == (sep + sep) + x + (sep + sep)
  {
    assert "" + sep == sep && sep + "" == sep;
    assert sep + sep + x + sep + sep == (sep + sep) + x + (sep + sep);
  }

  /** A `div` puts two blank lines on each side of its text. */
  lemma DivExample(t: string)
    requires !IsBlank(t)
    ensures Join(MarkdownLines(Elem("en-note", None, None, None, [Elem("div", None, Some(t), None, [])])), "\n")
            == "\n\n" + Strip(t) + "\n\n"
  {
    var d := Elem("div", None, Some(t), None, []);
    DivLines(t);
    OnlyChild(d);
    BareRoot(None, None, [d]);
    GapTextGap(Strip(t));
    JoinGapTextGap(Strip(t));
  }

  lemma JoinFive(a: string, b: string, c: string, d: string, e: string, sep: string)
    ensures Join([a, b, c, d, e], sep) == a + sep + b + sep + c + sep + d + sep + e
  {
    JoinCons(d, [e], sep);
    assert [d, e] == [d] + [e];
    JoinCons(c, [d, e], sep);
    assert [c, d, e] == [c] + [d, e];
    JoinCons(b, [c, d, e], sep);
    assert [b, c, d, e] == [b] + [c, d, e];
    JoinCons(a, [b, c, d, e], sep);
    assert [a, b, c, d, e] == [a] + [b, c, d, e];
  }

  /** Three nested `div`s around a text, with blank texts and tails, render
      as the text between two blank lines on each side: the twelve blank
      lines the `div`s make are cut to two runs of two. Each blank text and
      tail may be a different whitespace string (a space, a line feed and an
      indent, a tab, ...). */
  lemma NestedDivExample(t: string, w0: string, w1: string, w2: string, w3: string, w4: string, w5: string)
    requires !IsBlank(t)
    requires IsBlank(w0) && IsBlank(w1) && IsBlank(w2) && IsBlank(w3) && IsBlank(w4) && IsBlank(w5)
    ensures var d3 := Elem("div", None, Some(t), Some(w5), []);
      var d2 := Elem("div", None, Some(w3), Some(w4), [d3]);
      var d1 := Elem("div", None, Some(w1), Some(w2), [d2]);
      Join(MarkdownLines(Elem("en-note", None, Some(w0), None, [d1])), "\n") == "\n\n" + Strip(t) + "\n\n"
  {
    var d3 := Elem("div", None, Some(t), Some(w5), []);
    var d2 := Elem("div", None, Some(w3), Some(w4), [d3]);
    var d1 := Elem("div", None, Some(w1), Some(w2), [d2]);
    var x := Strip(t);
    NestedDivLines(d1, d2, d3, t, w1, w2, w3, w4, w5);
    BareRoot(Some(w0), None, [d1]);
    OnlyChild(d1);
    CollapseSixTextSix(x);
    JoinGapTextGap(x);
  }

  /** Six blank lines, a text and six blank lines collapse to a gap, the
      text and a gap. */
  lemma CollapseSixTextSix(x: string)
    requires !IsBlank(x)
    ensures RemoveMultipleBlankLines(Gap + Gap + Gap + [x] + Gap + Gap + Gap) == Gap + [x] + Gap
  {
    var six := Gap + Gap + Gap;
    assert six == ["", "", "", "", "", ""];
    assert forall i :: 0 <= i < |six| ==> IsBlank(six[i]);
    assert Gap + Gap + Gap + [x] + Gap + Gap + Gap == six + ([x] + six);
    CollapseRun(six, [x] + six, 0);
    CollapseAtText(x, six, 6);
    CollapseRun(six, [], 0);
    assert six + [] == six;
    assert six[..2] == Gap;
  }

  lemma NestedDivLines(d1: Elem, d2: Elem, d3: Elem, t: string, w1: string, w2: string, w3: string, w4: string, w5: string)
    requires !IsBlank(t) && IsBlank(w1) && IsBlank(w2) && IsBlank(w3) && IsBlank(w4) && IsBlank(w5)
    requires d3 == Elem("div", None, Some(t), Some(w5), [])
    requires d2 == Elem("div", None, Some(w3), Some(w4), [d3])
    requires d1 == Elem("div", None, Some(w1), Some(w2), [d2])
    ensures ElemToMarkdown(d1) == Gap + Gap + Gap + [Strip(t)] + Gap + Gap + Gap
  {
    var x := Strip(t);
    assert TextLine(Some(w1)) == [] && TextLine(Some(w2)) == [] && TextLine(Some(w3)) == [];
    assert TextLine(Some(w4)) == [] && TextLine(Some(w5)) == [];
    DivAndBreakLines(d3);
    assert ElemToMarkdown(d3) == Gap + [x] + Gap;
    DivAndBreakLines(d2);
    OnlyChild(d3);
    assert ElemToMarkdown(d2) == Gap + (Gap + [x] + Gap) + Gap;
    DivAndBreakLines(d1);
    OnlyChild(d2);
    assert ElemToMarkdown(d1) == Gap + (Gap + (Gap + [x] + Gap) + Gap) + Gap;
  }
}

=== FILE: note.dfy ===
/** A note's header fields and what `NoteWriter.add_note` makes of them: the
    Markdown header text and the output path. */
module Notes {
  import opened Wrappers
  import opened Text
  import opened DateTimes

  /** The fields the parser fills in. A tag is `None` when its element had
      no text, which the parser appends as it is. */
  datatype Note = Note(created: Option<UtcDateTime>, updated: Option<UtcDateTime>,
                       title: Option<string>, tags: seq<Option<string>>)

  /** `Note()`: nothing set and no tags. */
  function NewNote(): (n: Note)
    ensures n.created.None? && n.updated.None? && n.title.None? && n.tags == []
  {
    Note(None, None, None, [])
  }

  /** The exceptions `add_note` can raise: the path style needs a created
      date for the file name, and `", ".join` refuses a tag without text. */
  datatype WriteError = NoCreatedDate | TagWithoutText

  /** What `add_note` wrote before it returned or raised. The writes go out
      one by one, so the sections before a failing join are already
      written when it raises. */
  datatype Written = Written(text: string, error: Option<WriteError>)

  /** One header line: the heading and the value with a line feed, or
      nothing when the value is not set. */
  function Section(heading: string, value: Option<string>): string {
    match value
    case None => ""
    case Some(v) => heading + v + "\n"
  }

  /** A timestamp as `strftime('%Y-%m-%d %H:%M:%S')` writes it. */
  function StampText(d: Option<UtcDateTime>): Option<string> {
    match d
    case None => None
    case Some(v) => Some(ReadableStamp(v))
  }

  predicate AllTagsHaveText(tags: seq<Option<string>>) {
    forall i :: 0 <= i < |tags| ==> tags[i].Some?
  }

  function TagTexts(tags: seq<Option<string>>): (r: seq<string>)
    requires AllTagsHaveText(tags)
    ensures |r| == |tags| && forall i :: 0 <= i < |r| ==> tags[i] == Some(r[i])
  {
    if tags == [] then [] else [tags[0].value] + TagTexts(tags[1..])
  }

  /** The title, created and updated sections, in that order. */
  function HeadSections(note: Note): string {
    Section("# ", note.title) + Section("Created: ", StampText(note.created)) + Section("Updated: ", StampText(note.updated))
  }

  /** The text `add_note` writes for a note: `# title`, `Created:` and
      `Updated:` lines, each with its line feed and each only when the field
      is set, then `Tags: ` and the tags joined with `, ` without a final line
      feed, only when there are tags. A tag without text makes the join
      raise after the first three sections are out. */
  function Render(note: Note): (w: Written)
    ensures w.error.Some? <==> !AllTagsHaveText(note.tags)
    ensures w.error.Some? ==> w.error.value == TagWithoutText && w.text == HeadSections(note)
    ensures HasPrefix(w.text, HeadSections(note))
    ensures note.tags == [] ==> w.text == HeadSections(note)
  {
    var head := HeadSections(note);
    if AllTagsHaveText(note.tags) then
      PrefixOfConcat(head, TagLine(note.tags));
      Written(head + TagLine(note.tags), None)
    else
      Written(head, Some(TagWithoutText))
  }

  /** `Tags: ` and the tags joined with `, `, or nothing without tags. */
  function TagLine(tags: seq<Option<string>>): (r: string)
    requires AllTagsHaveText(tags)
    ensures tags == [] <==> r == []
  {
    if tags == [] then "" else "Tags: " + Join(TagTexts(tags), ", ")
  }

  lemma PrefixOfConcat(a: string, b: string)
    ensures HasPrefix(a + b, a)
  {
    assert (a + b)[..|a|] == a;
  }

  /** Where `add_note` writes: to a file under a directory, or to a stream. */
  datatype OutputStyle = PathStyle(dir: string) | StreamStyle

  /** `add_note`: the path style computes the file name first, so a note
      without a created date fails before anything is written; otherwise the
      text is `Render`'s. */
  function AddNote(style: OutputStyle, note: Note): (w: Written)
    ensures style.PathStyle? && note.created.None? ==> w == Written("", Some(NoCreatedDate))
    ensures style.StreamStyle? || note.created.Some? ==> w == Render(note)
  {
    match style
    case StreamStyle => Render(note)
    case PathStyle(_) => if note.created.None? then Written("", Some(NoCreatedDate)) else Render(note)
  }

  /** `getOutputFilename`: the components of
      `<dir>/<str(created.year)>/<created as %Y%m%dT%H%M%SZ>.md`. The year
      directory is the year's decimal digits, the file name is the compact
      stamp, which parses back to the created date, followed by `.md`. */
  function OutputFilename(dir: string, note: Note): (r: Result<seq<string>, WriteError>)
    ensures r.Failure? <==> note.created.None?
    ensures r.Failure? ==> r.error == NoCreatedDate
    ensures r.Success? ==>
              && |r.value| == 3 && r.value[0] == dir
              && AllDigits(r.value[1]) && DecimalValue(r.value[1]) == note.created.value.year
              && |r.value[2]| == 19 && r.value[2][16..] == ".md"
              && ParseDateTime(r.value[2][..16]) == Success(note.created.value)
    ensures r.Success? ==>
              r.value == [dir, DecimalString(note.created.value.year), CompactStamp(note.created.value) + ".md"]
  {
    match note.created
    case None => Failure(NoCreatedDate)
    case Some(d) =>
      var stem := CompactStamp(d);
      var name := stem + ".md";
      assert name[..16] == stem && name[16..] == ".md";
      ParseCompactStamp(d);
      Success([dir, DecimalString(d.year), name])
  }

  /** For a four-digit year the year directory repeats the first four
      characters of the file name. */
  lemma YearDirectoryMatchesStem(dir: string, note: Note)
    requires note.created.Some? && note.created.value.year >= 1000
    ensures OutputFilename(dir, note).Success?
    ensures var p := OutputFilename(dir, note).value; p[1] == p[2][..4]
  {
    var d := note.created.value;
    var stem := CompactStamp(d);
    assert OutputFilename(dir, note).value == [dir, DecimalString(d.year), stem + ".md"];
    FourDigitDecimalString(d.year);
    CompactFieldSlices(d);
    HeadOfConcat(stem, ".md", 4);
  }

  lemma HeadOfConcat(a: string, b: string, n: nat)
    requires n <= |a|
    ensures (a + b)[..n] == a[0..n]
  {
  }

  /** Nothing set, nothing written. */
  lemma EmptyNoteWritesNothing()
    ensures Render(NewNote()) == Written("", None)
  {
  }

  // ---------------------------------------------------------------------
  // Reading a header back

  /** The sections a header text holds, each as the text after its heading. */
  datatype Header = Header(title: Option<string>, created: Option<string>,
                           updated: Option<string>, tags: Option<string>)

  /** Reads a header text line by line: an optional `# ` line, an optional
      `Created: ` line, an optional `Updated: ` line, each ended by a line
      feed, and a last line that is empty or starts with `Tags: `. */
  function ReadHeader(text: string): Header {
    var (title, afterTitle) := ReadSection("# ", SplitAtNewlines(text));
    var (created, afterCreated) := ReadSection("Created: ", afterTitle);
    var (updated, last) := ReadSection("Updated: ", afterCreated);
    Header(title, created, updated, ReadTagLine(last))
  }

  /** Takes the first line when more lines follow it and it starts with
      `heading`, giving its value and the remaining lines. */
  function ReadSection(heading: string, lines: seq<string>): (r: (Option<string>, seq<string>))
    requires |lines| >= 1
    ensures |r.1| >= 1
  {
    if |lines| > 1 && HasPrefix(lines[0], heading) then (Some(lines[0][|heading|..]), lines[1..])
    else (None, lines)
  }

  function ReadTagLine(lines: seq<string>): Option<string>
    requires |lines| >= 1
  {
    if |lines| == 1 && HasPrefix(lines[0], "Tags: ") then Some(lines[0][6..]) else None
  }

  /** Line-feed-free title and tags, and every tag with text. */
  predicate Readable(note: Note) {
    && (note.title.Some? ==> NoNewline(note.title.value))
    && forall i :: 0 <= i < |note.tags| ==> note.tags[i].Some? && NoNewline(note.tags[i].value)
  }

  /** The header `add_note` writes reads back as the note's title, its two
      timestamps in the readable layout, and its tags joined with `, `: the
      sections are present exactly when their fields are set, and in the
      fixed order title, created, updated, tags. */
  lemma ReadRenderedHeader(note: Note)
    requires Readable(note)
    ensures Render(note).error.None?
    ensures ReadHeader(Render(note).text)
            == Header(note.title, StampText(note.created), StampText(note.updated),
                      if note.tags == [] then None else Some(Join(TagTexts(note.tags), ", ")))
  {
    var joined := if note.tags == [] then None else Some(Join(TagTexts(note.tags), ", "));
    if note.tags != [] {
      JoinKeepsNoNewline(TagTexts(note.tags), ", ");
    }
    assert Render(note).text == HeadSections(note) + TagText(joined);
    ReadSections(note.title, StampText(note.created), StampText(note.updated), joined);
  }

  /** The last header line: `Tags: ` and the joined tags, or nothing. */
  function TagText(joined: Option<string>): string {
    match joined
    case None => ""
    case Some(j) => "Tags: " + j
  }

  /** `ReadHeader` inverts the header layout for line-feed-free values. */
  lemma ReadSections(title: Option<string>, created: Option<string>, updated: Option<string>, joined: Option<string>)
    requires title.Some? ==> NoNewline(title.value)
    requires created.Some? ==> NoNewline(created.value)
    requires updated.Some? ==> NoNewline(updated.value)
    requires joined.Some? ==> NoNewline(joined.value)
    ensures ReadHeader(Section("# ", title) + Section("Created: ", created) + Section("Updated: ", updated) + TagText(joined))
            == Header(title, created, updated, joined)
  {
    var tagLine := TagText(joined);
    TagTextLine(joined);
    var l3 := [tagLine];
    var l2 := Line("Updated: ", updated) + l3;
    var l1 := Line("Created: ", created) + l2;
    var l0 := Line("# ", title) + l1;
    ReadPastLine("Updated: ", updated, l3);
    ReadPastLine("Created: ", created, l2);
    ReadPastLine("# ", title, l1);
    SectionJoin("Updated: ", updated, l3);
    SectionJoin("Created: ", created, l2);
    SectionJoin("# ", title, l1);
    var s1, s2, s3 := Section("# ", title), Section("Created: ", created), Section("Updated: ", updated);
    assert Join(l3, "\n") == tagLine;
    assert s3 + tagLine == Join(l2, "\n");
    assert s2 + (s3 + tagLine) == Join(l1, "\n");
    assert s1 + (s2 + (s3 + tagLine)) == Join(l0, "\n");
    var text := Join(l0, "\n");
    ConcatAssoc4(s1, s2, s3, tagLine);
    NoNewlinesConcat(Line("Updated: ", updated), l3);
    NoNewlinesConcat(Line("Created: ", created), l2);
    NoNewlinesConcat(Line("# ", title), l1);
    SplitJoin(l0);
    ReadHeaderSteps(text, title, created, updated, l1, l2, l3);
  }

  /** A section as a list of lines: one line, or none. */
  function Line(heading: string, value: Option<string>): (r: seq<string>)
    ensures |r| <= 1
  {
    match value
    case None => []
    case Some(v) => [heading + v]
  }

  /** A section followed by joined lines is the joined lines with the
      section's line in front. */
  lemma SectionJoin(heading: string, value: Option<string>, lines: seq<string>)
    requires |lines| >= 1
    ensures Section(heading, value) + Join(lines, "\n") == Join(Line(heading, value) + lines, "\n")
  {
    match value
    case None =>
      assert Line(heading, value) + lines == lines;
    case Some(v) =>
      JoinCons(heading + v, lines, "\n");
      assert Section(heading, value) == (heading + v) + "\n";
  }

  /** Reading a section's lines gives back its value and the lines after
      it, provided the next line does not start with the heading's first
      character. The first of the lines starts with the heading's first
      character or is the first of the lines after it. */
  lemma ReadPastLine(heading: string, value: Option<string>, rest: seq<string>)
    requires |heading| > 0 && NoNewline(heading) && |rest| >= 1
    requires value.Some? ==> NoNewline(value.value)
    requires rest[0] == [] || rest[0][0] != heading[0]
    ensures ReadSection(heading, Line(heading, value) + rest) == (value, rest)
    ensures var l := Line(heading, value) + rest; l[0] == rest[0] || l[0][0] == heading[0]
    ensures NoNewlines(Line(heading, value))
  {
    match value
    case None =>
      assert Line(heading, value) + rest == rest;
      assert !HasPrefix(rest[0], heading) by {
        if |rest[0]| >= |heading| {
          assert rest[0][..|heading|][0] == rest[0][0];
        }
      }
    case Some(v) =>
      var line := heading + v;
      ConcatNoNewline(heading, v);
      assert ([line] + rest)[1..] == rest;
      assert line[..|heading|] == heading && line[|heading|..] == v;
  }

  /** The tag line is one line, starts with `T` unless empty, and reads
      back as the joined tags. */
  lemma TagTextLine(joined: Option<string>)
    requires joined.Some? ==> NoNewline(joined.value)
    ensures NoNewline(TagText(joined)) && SplitAtNewlines(TagText(joined)) == [TagText(joined)]
    ensures TagText(joined) == [] || TagText(joined)[0] == 'T'
    ensures ReadTagLine([TagText(joined)]) == joined
  {
    var tagLine := TagText(joined);
    if joined.Some? {
      ConcatNoNewline("Tags: ", joined.value);
      assert tagLine[..6] == "Tags: ";
    }
    SplitSingleLine(tagLine);
  }

  /** `ReadHeader` takes its three sections in turn and then the tag line. */
  lemma ReadHeaderSteps(text: string, title: Option<string>, created: Option<string>, updated: Option<string>,
                        l1: seq<string>, l2: seq<string>, l3: seq<string>)
    requires |l1| >= 1 && |l2| >= 1 && |l3| >= 1
    requires ReadSection("# ", SplitAtNewlines(text)) == (title, l1)
    requires ReadSection("Created: ", l1) == (created, l2)
    requires ReadSection("Updated: ", l2) == (updated, l3)
    ensures ReadHeader(text) == Header(title, created, updated, ReadTagLine(l3))
  {
  }

  // ---------------------------------------------------------------------
  // The repository's tests

  lemma TitleExample()
    ensures Render(NewNote().(title := Some("Test title"))).text == "# Test title\n"
  {
  }

  lemma TagsExample()
    ensures Render(NewNote().(tags := [Some("hello"), Some("world")])).text == "Tags: hello, world"
  {
    assert TagTexts([Some("hello"), Some("world")]) == ["hello", "world"];
  }

  /** With `ReadableExample`, the `Created:` line of the repository's test. */
  lemma CreatedOnly(d: UtcDateTime)
    ensures Render(NewNote().(created := Some(d))).text == "Created: " + ReadableStamp(d) + "\n"
  {
  }

  lemma ReadableExample(d: UtcDateTime)
    requires d == DateTime(2010, 1, 1, 0, 0, 0)
    ensures ReadableStamp(d) == "2010" + "-" + "01" + "-" + "01" + " " + "00" + ":" + "00" + ":" + "00"
  {
    PaddedExamples();
    ReadableOf(d, "2010", "01", "01", "00", "00", "00");
  }

  /** The readable stamp is its six zero-filled fields with separators. */
  lemma ReadableOf(d: UtcDateTime, y: string, mo: string, da: string, h: string, mi: string, se: string)
    requires ZeroPad(d.year, 4) == y && ZeroPad(d.month, 2) == mo && ZeroPad(d.day, 2) == da
    requires ZeroPad(d.hour, 2) == h && ZeroPad(d.minute, 2) == mi && ZeroPad(d.second, 2) == se
    ensures ReadableStamp(d) == y + "-" + mo + "-" + da + " " + h + ":" + mi + ":" + se
  {
    ReadableFieldSlices(d);
    ReadableLayout(ReadableStamp(d));
  }

  lemma PaddedExamples()
    ensures ZeroPad(2010, 4) == "2010" && ZeroPad(1, 2) == "01" && ZeroPad(0, 2) == "00"
  {
    assert ZeroPad(0, 0) == [];
    assert ZeroPad(2, 1) == "2";
    assert ZeroPad(20, 2) == "20";
    assert ZeroPad(201, 3) == "201";
    assert ZeroPad(0, 1) == "0";
    assert ZeroPad(1, 1) == "1";
  }
}

=== FILE: note_listener.dfy ===
/** `NoteListener`: the in-memory receiver the parser hands notes to, which
    lets the parser be exercised without writing anything. */
module NoteListeners {

  /** The notes received so far, oldest first. */
  datatype NoteListener<T> = NoteListener(notes: seq<T>)

  /** `NoteListener()`: nothing received yet. */
  function NewListener<T>(): (l: NoteListener<T>)
    ensures |l.notes| == 0
  {
    NoteListener([])
  }

  /** `add_note`: the note goes at the end; the notes received before stay
      where they were, unchanged, and there is exactly one more. */
  function AddNote<T>(l: NoteListener<T>, n: T): (r: NoteListener<T>)
    ensures |r.notes| == |l.notes| + 1
    ensures r.notes[..|l.notes|] == l.notes
    ensures r.notes[|l.notes|] == n
  {
    NoteListener(l.notes + [n])
  }

  /** Handing over `ns` one note at a time. */
  function AddAll<T>(l: NoteListener<T>, ns: seq<T>): NoteListener<T>
    decreases |ns|
  {
    if ns == [] then l else AddAll(AddNote(l, ns[0]), ns[1..])
  }

  /** A listener that was handed `ns` one at a time holds what it held
      before followed by `ns`, in the order they were handed over. */
  lemma {:induction false} AddAllAppends<T>(l: NoteListener<T>, ns: seq<T>)
    ensures AddAll(l, ns).notes == l.notes + ns
    decreases |ns|
  {
    if ns != [] {
      var l' := AddNote(l, ns[0]);
      assert l'.notes == l.notes + [ns[0]];
      AddAllAppends(l', ns[1..]);
      assert l.notes + [ns[0]] + ns[1..] == l.notes + ns;
    }
  }

  /** Handing over two batches is handing over their concatenation. */
  lemma AddAllConcat<T>(l: NoteListener<T>, a: seq<T>, b: seq<T>)
    ensures AddAll(l, a + b) == AddAll(AddAll(l, a), b)
  {
    AddAllAppends(l, a + b);
    AddAllAppends(l, a);
    AddAllAppends(AddAll(l, a), b);
  }
}

=== FILE: text.dfy ===
/** String helpers shared by the renderer, the timestamp parser and the note
    writer: `str.strip`, "blank after strip", substring search, `str.join` and
    `str.splitlines`, over a fixed ASCII whitespace set. */
module Text {

  /** The characters `str.strip()` removes in this model: space, tab, line
      feed, carriage return, vertical tab and form feed. */
  predicate IsSpace(c: char) {
    c == ' ' || c == '\t' || c == '\n' || c == '\r' || c == '\U{0B}' || c == '\U{0C}'
  }

  predicate AllSpace(s: string) {
    forall i :: 0 <= i < |s| ==> IsSpace(s[i])
  }

  /** How many whitespace characters `s` starts with. */
  function LeadingSpace(s: string): (k: nat)
    ensures k <= |s|
    ensures forall i :: 0 <= i < k ==> IsSpace(s[i])
    ensures k < |s| ==> !IsSpace(s[k])
    decreases |s|
  {
    if s != [] && IsSpace(s[0]) then 1 + LeadingSpace(s[1..]) else 0
  }

  /** How many whitespace characters `s` ends with. */
  function TrailingSpace(s: string): (k: nat)
    ensures k <= |s|
    ensures forall i :: |s| - k <= i < |s| ==> IsSpace(s[i])
    ensures k < |s| ==> !IsSpace(s[|s| - 1 - k])
    decreases |s|
  {
    if s != [] && IsSpace(s[|s| - 1]) then 1 + TrailingSpace(s[..|s| - 1]) else 0
  }

  /** `str.strip()`: the slice of `s` left after its leading and trailing
      whitespace (`StripSlice` says where it sits). It starts and ends with
      a non-space, and it is empty exactly when `s` is all whitespace. */
  function Strip(s: string): (r: string)
    ensures |r| <= |s|
    ensures r == [] || (!IsSpace(r[0]) && !IsSpace(r[|r| - 1]))
    ensures r == [] <==> AllSpace(s)
  {
    var lead := LeadingSpace(s);
    if lead == |s| then []
    else
      var back := TrailingSpace(s);
      assert lead + back < |s|;
      s[lead..|s| - back]
  }

  /** Where the stripped string sits: it is the slice of `s` that starts
      after the leading whitespace, and every character outside that slice
      is whitespace. */
  lemma StripSlice(s: string)
    ensures LeadingSpace(s) + |Strip(s)| <= |s|
    ensures Strip(s) == s[LeadingSpace(s)..LeadingSpace(s) + |Strip(s)|]
    ensures forall i :: 0 <= i < |s| && !(LeadingSpace(s) <= i < LeadingSpace(s) + |Strip(s)|) ==> IsSpace(s[i])
  {
  }

  /** A line that `str.strip()` leaves alone. */
  predicate IsStripped(s: string) {
    s == [] || (!IsSpace(s[0]) && !IsSpace(s[|s| - 1]))
  }

  /** `len(line.strip()) == 0`: the line is whitespace only. */
  predicate IsBlank(s: string) {
    AllSpace(s)
  }

  lemma BlankIsEmptyStrip(s: string)
    ensures IsBlank(s) <==> |Strip(s)| == 0
  {
  }

  /** Stripping a stripped line changes nothing. */
  lemma StrippedIsFixed(s: string)
    requires IsStripped(s)
    ensures Strip(s) == s
  {
  }

  lemma StripIdempotent(s: string)
    ensures Strip(Strip(s)) == Strip(s)
  {
    StrippedIsFixed(Strip(s));
  }

  predicate OccursAt(s: string, pat: string, k: int) {
    0 <= k && k + |pat| <= |s| && s[k..k + |pat|] == pat
  }

  /** Python's `pat in s`. */
  predicate Contains(s: string, pat: string) {
    exists k | 0 <= k <= |s| :: OccursAt(s, pat, k)
  }

  /** Python's `pat in s`: the empty pattern occurs in every string, a
      pattern longer than `s` occurs nowhere in it, and a pattern occurs in
      any string built around it. */
  lemma InOperator(s: string, a: string, b: string, pat: string)
    ensures Contains(s, [])
    ensures Contains(s, pat) ==> |pat| <= |s|
    ensures Contains(a + pat + b, pat)
  {
    assert OccursAt(s, [], 0);
    assert (a + pat + b)[|a|..|a| + |pat|] == pat;
    assert OccursAt(a + pat + b, pat, |a|);
  }

  /** Stripping never creates an occurrence of a pattern. */
  lemma StripKeepsAbsence(s: string, pat: string)
    requires Contains(Strip(s), pat)
    ensures Contains(s, pat)
  {
    StripSlice(s);
    SliceContains(s, LeadingSpace(s), Strip(s), pat);
  }

  /** Stripping a line without a line feed leaves none. */
  lemma StripKeepsNoNewline(s: string)
    requires NoNewline(s)
    ensures NoNewline(Strip(s))
  {
    StripSlice(s);
    var lead := LeadingSpace(s);
    forall i | 0 <= i < |Strip(s)| ensures Strip(s)[i] != '\n' {
      assert Strip(s)[i] == s[lead + i];
    }
  }

  /** A pattern found in a slice is found in the whole string. */
  lemma SliceContains(s: string, lo: nat, r: string, pat: string)
    requires lo + |r| <= |s| && r == s[lo..lo + |r|]
    requires Contains(r, pat)
    ensures Contains(s, pat)
  {
    var k :| 0 <= k <= |r| && OccursAt(r, pat, k);
    forall i | 0 <= i < |pat| ensures s[lo + k + i] == pat[i] {
      assert r[k..k + |pat|][i] == r[k + i];
    }
    assert s[lo + k..lo + k + |pat|] == pat;
    assert OccursAt(s, pat, lo + k);
  }

  /** Python's `sep.join(parts)`; `JoinCons` and `JoinSnoc` say how it
      grows at either end. */
  function Join(parts: seq<string>, sep: string): string
    decreases |parts|
  {
    if |parts| == 0 then ""
    else if |parts| == 1 then parts[0]
    else parts[0] + sep + Join(parts[1..], sep)
  }

  /** Joining one more part appends the separator and that part. */
  lemma {:induction false} JoinSnoc(parts: seq<string>, x: string, sep: string)
    requires |parts| >= 1
    ensures Join(parts + [x], sep) == Join(parts, sep) + sep + x
    decreases |parts|
  {
    if |parts| == 1 {
      assert (parts + [x])[1..] == [x];
    } else {
      assert (parts + [x])[1..] == parts[1..] + [x];
      JoinSnoc(parts[1..], x, sep);
    }
  }

  lemma JoinCons(a: string, rest: seq<string>, sep: string)
    requires |rest| >= 1
    ensures Join([a] + rest, sep) == a + sep + Join(rest, sep)
  {
    assert ([a] + rest)[1..] == rest;
  }

  predicate NoNewline(s: string) {
    forall i :: 0 <= i < |s| ==> s[i] != '\n'
  }

  /** Splits `s` at every line feed: one piece more than there are line
      feeds, no piece contains one, and joining the pieces with line feeds
      gives `s` back. */
  function SplitAtNewlines(s: string): (r: seq<string>)
    ensures |r| >= 1
    ensures forall i :: 0 <= i < |r| ==> NoNewline(r[i])
    ensures Join(r, "\n") == s
    decreases |s|
  {
    if s == [] then [""]
    else
      var rest := SplitAtNewlines(s[1..]);
      if s[0] == '\n' then
        assert Join([""] + rest, "\n") == "" + "\n" + Join(rest, "\n") by {
          assert ([""] + rest)[1..] == rest;
        }
        [""] + rest
      else
        var r := [[s[0]] + rest[0]] + rest[1..];
        JoinConsFirst(s[0], rest);
        r
  }

  lemma JoinConsFirst(c: char, parts: seq<string>)
    requires |parts| >= 1
    ensures Join([[c] + parts[0]] + parts[1..], "\n") == [c] + Join(parts, "\n")
  {
    var q := [[c] + parts[0]] + parts[1..];
    if |parts| > 1 {
      var p, j := parts[0], Join(parts[1..], "\n");
      assert q[0] == [c] + p && q[1..] == parts[1..];
      assert Join(q, "\n") == [c] + p + "\n" + j;
      assert Join(parts, "\n") == p + "\n" + j;
      ConcatAssoc4([c], p, "\n", j);
      ConcatAssoc(p, "\n", j);
    }
  }

  lemma ConcatNoNewline(a: string, b: string)
    requires NoNewline(a) && NoNewline(b)
    ensures NoNewline(a + b)
  {
    assert forall i :: 0 <= i < |a + b| ==> (a + b)[i] == if i < |a| then a[i] else b[i - |a|];
  }

  /** A line without a line feed followed by one splits off as the first
      piece. */
  lemma {:induction false} SplitAfterLine(a: string, rest: string)
    requires NoNewline(a)
    ensures SplitAtNewlines(a + "\n" + rest) == [a] + SplitAtNewlines(rest)
    decreases |a|
  {
    var s := a + "\n" + rest;
    if a == [] {
      assert s[1..] == rest;
    } else {
      assert s[1..] == a[1..] + "\n" + rest;
      SplitAfterLine(a[1..], rest);
      assert [s[0]] + a[1..] == a;
    }
  }

  /** Splitting line-feed-free lines joined by line feeds gives the lines
      back: `SplitAtNewlines` inverts `Join` with a line feed. */
  lemma {:induction false} SplitJoin(lines: seq<string>)
    requires |lines| >= 1 && NoNewlines(lines)
    ensures SplitAtNewlines(Join(lines, "\n")) == lines
    decreases |lines|
  {
    if |lines| == 1 {
      SplitSingleLine(lines[0]);
    } else {
      SplitJoin(lines[1..]);
      SplitAfterLine(lines[0], Join(lines[1..], "\n"));
      assert [lines[0]] + lines[1..] == lines;
    }
  }

  predicate NoNewlines(lines: seq<string>) {
    forall i :: 0 <= i < |lines| ==> NoNewline(lines[i])
  }

  lemma NoNewlinesConcat(a: seq<string>, b: seq<string>)
    requires NoNewlines(a) && NoNewlines(b)
    ensures NoNewlines(a + b)
  {
    assert forall i :: 0 <= i < |a + b| ==> (a + b)[i] == if i < |a| then a[i] else b[i - |a|];
  }

  /** Concatenation is associative. */
  lemma ConcatAssoc<T>(a: seq<T>, b: seq<T>, c: seq<T>)
    ensures a + (b + c) == (a + b) + c
  {
  }

  lemma ConcatAssoc4(a: string, b: string, c: string, d: string)
    ensures a + b + c + d == a + (b + (c + d))
  {
  }

  /** A string without a line feed is a single piece. */
  lemma {:induction false} SplitSingleLine(a: string)
    requires NoNewline(a)
    ensures SplitAtNewlines(a) == [a]
    decreases |a|
  {
    if a != [] {
      SplitSingleLine(a[1..]);
      assert [a[0]] + a[1..] == a;
    }
  }

  /** Joining line-feed-free parts with a line-feed-free separator gives a
      line-feed-free string. */
  lemma {:induction false} JoinKeepsNoNewline(parts: seq<string>, sep: string)
    requires NoNewline(sep)
    requires forall i :: 0 <= i < |parts| ==> NoNewline(parts[i])
    ensures NoNewline(Join(parts, sep))
    decreases |parts|
  {
    if |parts| > 1 {
      JoinKeepsNoNewline(parts[1..], sep);
      var tail := Join(parts[1..], sep);
      var j := parts[0] + sep + tail;
      forall i | 0 <= i < |j| ensures j[i] != '\n' {
        if i < |parts[0]| {
          assert j[i] == parts[0][i];
        } else if i < |parts[0]| + |sep| {
          assert j[i] == sep[i - |parts[0]|];
        } else {
          assert j[i] == tail[i - |parts[0]| - |sep|];
        }
      }
    }
  }

  predicate HasPrefix(s: string, p: string) {
    |p| <= |s| && s[..|p|] == p
  }

  /** Python's `str.splitlines()` restricted to line feeds: an empty string
      has no lines, and a final line feed does not open an empty last line,
      so the lines joined back give the content without its final line
      feed. */
  function SplitLines(s: string): (r: seq<string>)
    ensures forall i :: 0 <= i < |r| ==> NoNewline(r[i])
    ensures s == [] ==> r == []
    ensures s != [] ==> r != []
    ensures s != [] && s[|s| - 1] != '\n' ==> Join(r, "\n") == s
    ensures s != [] && s[|s| - 1] == '\n' ==> Join(r, "\n") + "\n" == s
  {
    if s == [] then []
    else
      var pieces := SplitAtNewlines(s);
      if s[|s| - 1] == '\n' then
        FinalLineFeed(s, pieces);
        pieces[..|pieces| - 1]
      else pieces
  }

  /** Content ending in a line feed splits into lines ending with an empty
      one, which the other lines, joined, precede. */
  lemma FinalLineFeed(s: string, pieces: seq<string>)
    requires s != [] && s[|s| - 1] == '\n'
    requires |pieces| >= 1 && Join(pieces, "\n") == s
    requires forall i :: 0 <= i < |pieces| ==> NoNewline(pieces[i])
    ensures |pieces| >= 2 && pieces[|pieces| - 1] == []
    ensures Join(pieces[..|pieces| - 1], "\n") + "\n" == s
  {
    var n := |pieces|;
    assert n >= 2;
    var init, last := pieces[..n - 1], pieces[n - 1];
    InitAndLast(pieces);
    JoinSnoc(init, last, "\n");
    assert NoNewline(last);
    LastCharOfConcat(Join(init, "\n") + "\n", last);
    assert Join(init, "\n") + "\n" + [] == Join(init, "\n") + "\n";
  }

  /** A non-empty sequence is its front followed by its last element. */
  lemma InitAndLast<T>(xs: seq<T>)
    requires |xs| >= 1
    ensures xs == xs[..|xs| - 1] + [xs[|xs| - 1]]
  {
  }

  /** The last character of `a + b` is the last of `b`, or of `a` when `b`
      is empty. */
  lemma LastCharOfConcat(a: string, b: string)
    requires |a + b| > 0
    ensures b != [] ==> (a + b)[|a + b| - 1] == b[|b| - 1]
    ensures b == [] ==> (a + b)[|a + b| - 1] == a[|a| - 1]
  {
  }

  /** A pattern without a line feed that occurs in no part does not occur in
      the parts joined by line feeds either. */
  lemma {:induction false} JoinAvoids(parts: seq<string>, pat: string)
    requires |pat| > 0 && NoNewline(pat)
    requires forall i :: 0 <= i < |parts| ==> !Contains(parts[i], pat)
    ensures !Contains(Join(parts, "\n"), pat)
    decreases |parts|
  {
    if |parts| == 1 {
      assert !Contains(parts[0], pat);
    } else if |parts| > 1 {
      var head := parts[0];
      var tail := Join(parts[1..], "\n");
      JoinAvoids(parts[1..], pat);
      var s := head + "\n" + tail;
      assert Join(parts, "\n") == s;
      assert !Contains(parts[0], pat);
      forall k | 0 <= k <= |s| ensures !OccursAt(s, pat, k) {
        if k + |pat| <= |s| {
          if k + |pat| <= |head| {
            assert s[k..k + |pat|] == head[k..k + |pat|];
            assert !OccursAt(head, pat, k);
          } else if k > |head| {
            assert s[k..k + |pat|] == tail[k - |head| - 1..k - |head| - 1 + |pat|];
            assert !OccursAt(tail, pat, k - |head| - 1);
          } else {
            // the window covers the separating line feed, which `pat` lacks
            assert s[k..k + |pat|][|head| - k] == '\n';
            assert pat[|head| - k] != '\n';
          }
        }
      }
    }
  }
}

=== FILE: wrappers.dfy ===
/** Failure-compatible Option and Result, used where the modelled code returns
    Python's None or raises an exception. */
module Wrappers {

  datatype Option<+T> = None | Some(value: T) {

    predicate IsFailure() {
      None?
    }

    function PropagateFailure<U>(): Option<U>
      requires None?
    {
      None
    }

    function Extract(): T
      requires Some?
    {
      value
    }
  }

  datatype Result<+R, +E> = Success(value: R) | Failure(error: E) {

    predicate IsFailure() {
      Failure?
    }

    function PropagateFailure<U>(): Result<U, E>
      requires Failure?
    {
      Failure(error)
    }

    function Extract(): R
      requires Success?
    {
      value
    }
  }
}
